=== FILE: README.md ===
# ftp-transer, modelled in Dafny

`ftp-transer` copies files from one FTP server to another. It lists a source
directory, keeps the entries a regular expression finds a match in and whose
modification time (the MDTM command) lies in a time window, and uploads each
kept file to a target directory under its base name. The repository holds two
programs that do this: `src/main.rs` (Rust, `suppaftp`, `chrono`, `regex`) and
`src/main.py` (Python, `ftplib`, `datetime`, `dateutil`).

This project models both programs as pure functions. The FTP servers are
oracles passed in as parameters. A Rust `unwrap` panic ends a run and is
recorded as such. A Python exception is the `Err` of a `Result`.

| module | file | what it holds |
|---|---|---|
| `Wrappers` | `wrappers.dfy` | `Option` and `Result` |
| `Seqs` | `seqs.dfy` | order-preserving `Filter`, subsequences and `Flatten`, with their algebra |
| `DateTimes` | `datetimes.dfy` | the calendar date-time, its validity and its order; closed windows |
| `Text` | `text.dfy` | `split` on a character and its inverse `Join` |
| `Paths` | `paths.dfy` | the base name of a path, by index and by splitting on `/` |
| `Ftp` | `ftp.dfy` | bytes and the regular-expression matcher |
| `RustMain` | `rust_main.dfy` | `filter_files`, `filter_by_time`, `upload_to_target` (as written and as intended) and `main` of the Rust program |
| `PyTimeVal` | `py_timeval.dfy` | `datetime.strptime(s, "%Y%m%d%H%M%S")` as CPython implements it, and the MDTM reply |
| `PyInt` | `py_int.dfy` | `int()` on a string, and `str()` as its inverse |
| `PyMain` | `py_main.dfy` | `FTPHandler` (`__enter__`, `list_files`, `get_modified_time`, `transfer_files`) and `main` of the Python program |
| `Variants` | `variants.dfy` | where the two programs agree and where they differ |

How the two programs behave:

- Both programs look for the pattern anywhere in the entry: Rust's `Regex::is_match` and Python's `re.search`. The whole entry does not have to match.
- In the Python program a failed MDTM, or a reply `strptime` rejects, raises out of `list_files`. It does not drop the entry as the Rust program does.
- The Python program goes on with the next file after a failed RETR or STOR, and it enters the target directory once, before its loop. The Rust program panics at the first failure, and it sends the CWD to `--target-path` on every pass, each time from the directory the previous pass entered. A relative target path is therefore resolved again from inside itself (see "## Findings").
- `strptime` with `%Y%m%d%H%M%S` accepts more than fourteen-digit stamps. Its fields are CPython regular-expression groups tried in order, and all but the year may be one digit. So `202411111` reads as 2024-01-01 01:01:01.
  - Input the groups leave unconsumed is an error. `20241301000000` is rejected: `1` is taken as the month and one digit is left over.
  - `PyTimeVal.Strptime` models this search. `PyTimeVal.ShortStampAccepted` and `PyTimeVal.MonthThirteenRejected` prove the two examples. `PyTimeVal.FourteenDigitsReadExactly` shows that fourteen digits which parse are read positionally.

## Model

| member | source | states |
|---|---|---|
| RustMain.FilterFiles | src/main.rs:82-94 | the kept names are an order-preserving subsequence of the listing; a name is kept iff the pattern matches it, each kept as often as it is listed |
| Seqs.FilterCharacterized | src/main.rs:82-94 | those properties determine the result: any order-preserving subsequence of the listing that keeps each accepted name as often as it is listed, and no other name, is the filter's result |
| RustMain.FilterByTime | src/main.rs:96-111 | a file survives iff its MDTM succeeds and its time lies in the closed window; a failed MDTM drops the file; the order is kept; an inverted window keeps nothing |
| RustMain.FilterByTimeIdempotent | src/main.rs:102-110 | filtering a second time with the same times and window removes nothing more |
| RustMain.BoundsInclusive | src/main.rs:106 | a file stamped exactly at the start or at the end bound is kept |
| RustMain.Select | src/main.rs:138-140 | the regex filter then the time filter is one filter: a listing entry is selected iff it matches, its time is known, and the time is in the window |
| RustMain.PlannedShape | src/main.rs:70-77 | a successful upload issues exactly RETR, CWD, STOR per file, in input order, each STOR carrying that file's contents under its base name into the directory its CWD entered; the i-th CWD is sent from the directory the CWDs before it entered |
| RustMain.UploadToTarget | src/main.rs:64-78 | the round trips issued are a prefix of that plan; the loop completes iff every pass succeeds, each pass starting in the directory the previous one entered, and then the plan is issued in full |
| RustMain.UploadStopsAtFirstFailure | src/main.rs:71-76 | every round trip before the last succeeded, and the last one failed exactly when the loop stopped early: nothing is attempted after a panic |
| RustMain.RelativeTargetPanics | src/main.rs:75 | as written: with `--target-path out`, two files and a target where only `/home/out` exists, the second pass sends CWD `out` from `/home/out`, it is refused and the run panics before the second file is stored |
| RustMain.StoreAll | src/main.rs:70-77 | corrected loop: for each file, RETR then STOR into the one directory; a prefix of its plan, complete iff every file is retrieved and stored, every STOR into that directory, nothing after the first failure |
| RustMain.UploadOnce | src/main.rs:64-78 | corrected: nothing is sent when there is no file, as with the loop as written; otherwise one CWD before the loop; it comes first, a refusal ends the upload, every STOR goes into the directory it entered, and the upload completes iff the CWD and every RETR and STOR succeed |
| RustMain.RelativeTargetStoresBoth | src/main.rs:75 | corrected, on the same servers: one CWD, and both files are stored in `/home/out` |
| RustMain.AbsoluteTargetAgrees | src/main.rs:75 | when the target path names the same directory from anywhere, as an absolute path does, the upload as written completes iff the corrected one does, for every file list including the empty one |
| RustMain.AbsoluteTargetStoresInPlace | src/main.rs:70-77 | for such a path, a completed upload as written stored every file, under its base name and with its own contents, in that one directory |
| RustMain.WindowFromArgs | src/main.rs:127-134 | as written: without `--start-time` the window is the default one; with it, both bounds are that instant, and an unparsable value panics |
| RustMain.EndTimeInert | src/main.rs:131 | the window does not depend on `--end-time` at all |
| RustMain.StartTimeSelectsInstant | src/main.rs:127-140 | with `--start-time` given, a file is selected iff it matches and is stamped exactly at that instant |
| RustMain.WindowFromArgsReadsStartTwice | src/main.rs:127-134 | the window as written is the corrected window computed with `--start-time` given for both options |
| RustMain.IntendedWindowFromArgs | src/main.rs:127-134 | corrected: each bound is read from its own option or defaults to 2024-01-01T00:00:00 / 2024-12-31T23:59:00; the run is rejected iff a given option does not parse |
| RustMain.EndTimeIgnoredExample | src/main.rs:131-134 | a file stamped 2024-04-01 between `--start-time 2024-03-01T00:00:00` and `--end-time 2024-06-01T00:00:00` is dropped as written and kept as intended |
| RustMain.Run | src/main.rs:127-143 | with the corrected window and upload (see "Left out"): rejected iff a given time does not parse; otherwise each listing entry is selected as often as it is listed iff it matches and its time is in the window, in listing order; an empty selection sends nothing and completes; otherwise the upload starts with the CWD; it is a prefix of the plan for the selection, completes iff the CWD and every RETR and STOR succeed, stores only into the directory entered, and stops at the first failure |
| Paths.BaseNameShape | src/main.py:60 | the base name has no `/`, is a suffix of the path and starts it or follows a `/`; a path without `/` is its own base name, a trailing `/` gives the empty name |
| Paths.SuffixIsBaseName | src/main.py:60 | conversely, a suffix of the path without `/` that starts the path or follows a `/` is the base name: the base name is the only such suffix |
| Paths.LastPieceIsBaseName | src/main.rs:73 | the last piece of `split('/')` is exactly the base name, so both programs name the uploaded file the same way |
| Text.Split | src/main.py:18 | the number of pieces is one more than the number of separators; no piece contains the separator; joining the pieces restores the string |
| Text.SplitJoin | src/main.py:18 | splitting undoes joining pieces that contain no separator |
| PyInt.ParseIntShow | src/main.py:20 | `int(str(n)) == n` for every integer (CPython's digit limit aside, see "Left out") |
| PyInt.ParseIntIgnoresSpace | src/main.py:20 | a character `int()` strips (ASCII `\t` to `\r` and space, and the non-ASCII white space) before or after the port does not change the value read |
| PyInt.SeparatorNotStripped | src/main.py:20 | U+001C is not stripped: `int()` rejects "\x1c21" and reads " 21" as 21 |
| PyMain.SplitHost | src/main.py:18-20 | the host is rejected as not a pair iff it holds other than exactly one colon; one colon and a port text `int()` reads give success; on success the address is the text before the colon and the port is `int()` of the text after it |
| PyMain.SplitHostRoundTrip | src/main.py:18-20 | a colon-free address, a colon and `str(port)` split back into that address and port |
| PyTimeVal.Strptime | src/main.py:50 | an accepted text is 9 to 14 digits or spaces, and the date-time read from it is a valid calendar time |
| PyTimeVal.TimeValRoundTrip | src/main.py:50 | the zero-padded fourteen-digit stamp of any valid time (years 1 to 9999) reads back as that time |
| PyTimeVal.FourteenDigitsReadExactly | src/main.py:50 | conversely, fourteen digits that parse are exactly the zero-padded stamp of the time read |
| PyTimeVal.ShortStampAccepted | src/main.py:50 | the nine-digit text "202411111" is accepted and read as 2024-01-01 01:01:01 |
| PyTimeVal.MonthThirteenRejected | src/main.py:50 | "20241301000000" is rejected: the month is read as 1, the day as 30, and a digit is left over |
| PyTimeVal.MdtmReplyRoundTrip | src/main.py:49-50 | dropping the four-character reply code of "213 " + stamp and parsing gives back the time |
| PyMain.GetModifiedTime | src/main.py:48-51 | the result is a valid time read from a reply whose text after the code has 9 to 14 characters, and it is exactly `strptime` of that text; it fails iff the MDTM raises or its text does not parse, the error says which of the two, and it names the file |
| PyMain.GetModifiedTimeReadsReply | src/main.py:48-51 | a well-formed "213 YYYYMMDDHHMMSS" reply yields exactly the time it carries |
| PyMain.ListFiles | src/main.py:27-46 | it succeeds iff no matching entry's time query fails while a bound is present; then the result is the listing filtered, in order, to matching entries whose time is not before the start and not after the end |
| PyMain.ListFilesReportsFirstFailure | src/main.py:37-44 | when it raises, the exception is that of the first entry whose time cannot be read |
| PyMain.UnboundedNeverQueries | src/main.py:39-40 | with no bound, no MDTM is sent: the result does not depend on the server's replies and is the pattern filter |
| PyMain.TransferOne | src/main.py:59-67 | the STOR goes to the file's base name; the bytes sent are the buffer's contents before the position, then what RETR delivered, then the older bytes beyond them unchanged; a failed RETR sends nothing and leaves the delivered prefix written into the buffer; after a STOR the buffer holds the bytes sent, positioned at their end when stored and where the reading stopped when refused |
| PyMain.TransferLoop | src/main.py:58-67 | the loop goes on after a failed file: one outcome per file, and the buffer position stays within its contents |
| PyMain.TransferLoopOutcomes | src/main.py:58-67 | the i-th outcome is for the i-th file, records a RETR failure iff that RETR raised, and otherwise stores under the file's base name |
| PyMain.TransferFiles | src/main.py:53-67 | the run fails iff the target refuses the directory, before any file is touched; otherwise every file has an outcome |
| PyMain.TransferBufferAccumulates | src/main.py:56-67 | when no STOR of the run fails (every outcome is a RETR failure or a stored upload), the shared buffer ends holding every delivered byte of every file, concatenated |
| PyMain.TransferPayloadAccumulates | src/main.py:61-63 | when no STOR before the i-th file fails (every earlier outcome is a RETR failure or a stored upload), the i-th upload sends the contents of files 0 to i concatenated |
| PyMain.TransferFilesAccumulates | src/main.py:53-67 | with the target directory accepted, `transfer_files` as called succeeds, and an upload after only RETR failures and stored uploads sends the contents of all files up to it, concatenated |
| PyMain.SecondUploadCarriesFirstFile | src/main.py:56-63 | two files with contents c1 (non-empty) and c2: the second STOR sends c1 + c2, not c2 |
| PyMain.RefusedStorLeavesStaleTail | src/main.py:61-63 | a STOR refused before reading leaves the position at 0, so a shorter second file c2 is sent followed by the stale tail of the first file |
| PyMain.TransferFilesFresh | src/main.py:53-67 | corrected: one outcome per file; every upload goes to the base name and carries exactly the bytes retrieved for that file |
| PyMain.Bound | src/main.py:102-111 | an absent or empty option gives the default; a given option gives its parse, and fails iff it does not parse |
| PyMain.MainWindow | src/main.py:102-111 | the window is the two bounds, each from its own option; a malformed start is reported first, and otherwise a malformed end is reported |
| PyMain.BoundsIndependent | src/main.py:102-111 | changing the end option never moves the start bound, and changing the start option never moves the end bound |
| PyMain.DefaultWindowShape | src/main.py:105-110 | without options a valid time is in the window iff it lies in 2024 or is exactly 2025-01-01 00:00:00 |
| PyMain.Main | src/main.py:98-117 | with the corrected transfer (see "Left out"): a malformed time option fails the run with exactly the window's error; with the window parsed, the run succeeds iff `list_files` succeeds and the target directory is accepted, otherwise it fails with the first of those errors; a successful run has one outcome per selected file, in order |
| PyMain.MainAsWritten | src/main.py:98-117 | the command as written, with the shared buffer: the same failure (including the window's own error for a malformed time option) and success conditions as `PyMain.Main`, and one outcome per selected file, in order |
| PyMain.MainAsWrittenAgrees | src/main.py:98-117 | the run as written and the corrected run fail alike with the same error, and touch the same files in order with the same RETR failures and target names |
| PyMain.MainSendsSelected | src/main.py:98-117 | with the corrected transfer: every file a successful run touches is listed, matches, has a readable time inside the window, and an uploaded one sends its own contents |
| Variants.SelectionsAgree | src/main.py:34-46 | when the two regular-expression engines agree on every listed entry, the Rust time reading of each entry is the Python one, and every matching entry's time can be read, `list_files` with both bounds selects exactly what the Rust regex and time filters select, in the same order |
| Variants.UnreadableEntryDiverges | src/main.py:40 | a matching entry whose time neither program can read makes the Python selection raise, while the Rust selection drops the entry |
| Variants.DefaultWindowsDiffer | src/main.rs:133 | the default windows share their start, but 2024-12-31 23:59:30 is inside the Python default window and outside the Rust one |

## Left out

- Connecting and logging in are not modelled. This covers `FtpClient::new`, `FtpStream::connect`, `ftplib.FTP.connect` and `login`. They are network I/O whose only effect on the model is success or failure before the modelled work starts.
- Quitting is not modelled. The Rust program ignores the result of `quit` (src/main.rs:144-145). In Python, `__exit__` calls `quit()` (src/main.py:24-25) after `transfer_files`, and also while an exception propagates out of the `with` block. A `quit` that raises there replaces that exception, so the error a failed run reports can be the `quit` failure rather than the `PyError` the model gives.
- NLST is not modelled: the listing is a parameter. Its failure is a Rust panic and a Python exception before any filtering.
- Compiling the regular expression is not modelled: matching is a parameter `matches(pattern, entry)`. In Rust a pattern that does not compile panics at `Regex::new(..).unwrap()` (src/main.rs:84), before any entry is tested. Python compiles the pattern inside `re.search`, once per entry (src/main.py:37-38): a bad pattern raises `re.error` at the first entry, and with an empty listing it never raises, so the run goes on and `transfer_files` still enters the target directory (src/main.py:57).
- `Paths.BaseName` follows `posixpath.basename`, which cuts at the last `/` only. On Windows `os.path` is `ntpath`, which also cuts at `\` and after a drive colon; there `Paths.LastPieceIsBaseName` does not hold.
- `RustMain.Run` composes the corrected window (`IntendedWindowFromArgs`) and the corrected upload (`UploadOnce`). For the window, the run as written is `Run` given `--start-time` for both options, by `RustMain.WindowFromArgsReadsStartTwice`. For the upload, the loop as written is `UploadToTarget`; `RustMain.AbsoluteTargetAgrees` shows it completes exactly when `UploadOnce` does whenever the target path names one directory from anywhere, and with nothing selected neither sends anything.
- `PyMain.Main` composes the corrected transfer (`TransferFilesFresh`), and so does `PyMain.MainSendsSelected`. The command as written is `PyMain.MainAsWritten`; `PyMain.MainAsWrittenAgrees` shows the two differ only in what the uploads carry, and hence in whether each STOR completes.
- `Variants.SelectionsAgree` assumes that the two regular-expression engines give the same answer on every listed entry and that the Rust MDTM reading equals the Python one. Neither is promised: `regex` and `re` differ on look-around, back-references and `$` before a final newline, and `strptime` also accepts stamps shorter than fourteen digits.
- `Variants.UnreadableEntryDiverges` assumes that the Rust program cannot read the entry's time either. It uses only the Python engine's answer; the Rust engine is not asked.
- The Rust MDTM query and chrono's parsing of its reply are one oracle from name to optional time. `suppaftp`'s reply parsing is not part of this model.
- Rust parses the time options with chrono (`parse_from_str`). Python parses them with `dateutil.parser.parse`. Both are oracles. The Python defaults are written as the times they denote.
- `PyMain.MainWindow`: a time option that `dateutil` reads with a time zone cannot be compared with the naive MDTM time, and Python then raises `TypeError`. The model treats every parsed time as naive.
- Microseconds, which `dateutil` can produce for an option, are not modelled. Times carry whole seconds.
- `PyTimeVal.Strptime`: only ASCII digits are modelled. CPython's `\d` also accepts other Unicode decimal digits.
- `PyInt.ParseInt` has the same limit: only ASCII digits are modelled. Python's `int()` also accepts other Unicode decimal digits. It also does not model CPython's limit on the length of decimal text: since Python 3.11, and in the security releases of 3.7 to 3.10, `int()` raises `ValueError` for text of more than 4300 digits (`sys.int_info.default_max_str_digits`, adjustable at run time). A 4301-digit port makes `__enter__` raise there, while `PyMain.SplitHost` returns the value.
- `PyInt.ParseIntShow`: `int(str(n)) == n` is proved for every integer. In CPython `str(n)` itself raises `ValueError` beyond 4300 digits, so the round trip holds there only for integers below 10^4300 in magnitude.
- The port number's range is not modelled. A value `int()` accepts but the socket rejects fails inside `connect`, which is left out.
- The Python `retrbinary` is one oracle call per file: the bytes it delivered and whether it raised. The model does not follow block boundaries; a RETR that fails part-way is modelled as delivering a prefix.
- The printed messages are not modelled: `print!`/`println!` in Rust, and the exception text in Python's `except`. `buffer.flush()` is a no-op on `BytesIO`.
- The Rust `RoundTrips` records the STOR payload as the bytes RETR returned. `put_file` streaming the cursor in chunks is not modelled.
- `DateTimes.Valid`: year bounds follow Python's `datetime` (1 to 9999). chrono's wider range matters only inside the oracle.

## Findings

| source | as written | input that shows it | evidently intended | confidence | as-written member | corrected member |
|---|---|---|---|---|---|---|
| src/main.rs:131 | the end bound is parsed from `args.start_time` | `--start-time 2024-03-01T00:00:00 --end-time 2024-06-01T00:00:00` with a matching file stamped 2024-04-01T00:00:00: the window collapses to one instant and the file is dropped | the end bound is parsed from `args.end_time` | high; not executed | RustMain.WindowFromArgs, RustMain.EndTimeIgnoredExample | RustMain.IntendedWindowFromArgs |
| src/main.py:56-63 | one `BytesIO` serves every file and is never truncated; after each STOR the position is left at the end | two files with contents `c1` (non-empty) and `c2`, both retrieved and stored: the second STOR uploads `c1 + c2` | each upload carries only the bytes retrieved for that file | high; not executed | PyMain.TransferFiles, PyMain.SecondUploadCarriesFirstFile | PyMain.TransferFilesFresh |
| src/main.rs:75 | `target_ftp.cwd(target_path)` runs inside the loop, once per file, each time from the directory the previous pass entered | `--target-path out` (relative), two files `a` and `b`, and a target where `/home/out` exists but `/home/out/out` does not: `a` is stored in `/home/out`, the second CWD is refused and `unwrap` panics, so `b` is never stored | enter the target directory once, before the loop, as the Python program does at src/main.py:57, and send nothing when there is no file | high; not executed | RustMain.UploadToTarget, RustMain.RelativeTargetPanics | RustMain.UploadOnce, RustMain.RelativeTargetStoresBoth |

`RustMain.Run` and `PyMain.Main` compose the corrected members. The as-written
members are kept next to them and are what the lemmas about the defects are
stated over; `RustMain.WindowFromArgsReadsStartTwice`,
`RustMain.AbsoluteTargetAgrees` and `PyMain.MainAsWrittenAgrees` relate the two.

=== FILE: datetimes.dfy ===
/** Naive (time-zone-free) timestamps at one-second resolution, their order, and
    inclusive time windows. */
module DateTimes {
  import opened Wrappers

  datatype DateTime = DateTime(year: int, month: int, day: int, hour: int, minute: int, second: int)

  /** Gregorian leap years. */
  predicate IsLeapYear(y: int) {
    y % 4 == 0 && (y % 100 != 0 || y % 400 == 0)
  }

  function DaysInMonth(y: int, m: int): (n: int)
    requires 1 <= m <= 12
    ensures 28 <= n <= 31
    ensures n == 29 <==> m == 2 && IsLeapYear(y)
  {
    if m == 2 then (if IsLeapYear(y) then 29 else 28)
    else if m == 4 || m == 6 || m == 9 || m == 11 then 30
    else 31
  }

  /** A calendar time that a Python `datetime` can hold (years 1 to 9999). */
  predicate Valid(t: DateTime) {
    && 1 <= t.year <= 9999
    && 1 <= t.month <= 12
    && 1 <= t.day <= DaysInMonth(t.year, t.month)
    && 0 <= t.hour < 24
    && 0 <= t.minute < 60
    && 0 <= t.second < 60
  }

  /** Chronological order: field by field, most significant first. */
  predicate Le(a: DateTime, b: DateTime) {
    if a.year != b.year then a.year < b.year
    else if a.month != b.month then a.month < b.month
    else if a.day != b.day then a.day < b.day
    else if a.hour != b.hour then a.hour < b.hour
    else if a.minute != b.minute then a.minute < b.minute
    else a.second <= b.second
  }

  /** Strictly earlier. */
  predicate Lt(a: DateTime, b: DateTime) {
    !Le(b, a)
  }

  lemma LeTotalOrder(a: DateTime, b: DateTime, c: DateTime)
    ensures Le(a, a)
    ensures Le(a, b) || Le(b, a)
    ensures Le(a, b) && Le(b, a) ==> a == b
    ensures Le(a, b) && Le(b, c) ==> Le(a, c)
    ensures Lt(a, b) <==> Le(a, b) && a != b
  {
  }

  /** An inclusive window `[start, end]`. */
  datatype Window = Window(start: DateTime, end: DateTime)

  predicate Contains(w: Window, t: DateTime) {
    Le(w.start, t) && Le(t, w.end)
  }

  /** Both bounds belong to a non-empty window; a window whose start is after its
      end holds nothing; a window whose bounds coincide holds only that instant. */
  lemma WindowShape(w: Window, t: DateTime)
    ensures Le(w.start, w.end) ==> Contains(w, w.start) && Contains(w, w.end)
    ensures !Le(w.start, w.end) ==> !Contains(w, t)
    ensures w.start == w.end ==> (Contains(w, t) <==> t == w.start)
  {
    LeTotalOrder(w.start, t, w.end);
    LeTotalOrder(t, w.start, w.end);
  }

  /** A parser of a command-line time option: chrono's `parse_from_str` in the Rust
      program, `dateutil.parser.parse` in the Python one. `None` is its failure. */
  type TimeParser = string -> Option<DateTime>
}

=== FILE: ftp.dfy ===
/** Vocabulary shared by both variants of the transfer tool. */
module Ftp {

  newtype byte = x: int | 0 <= x < 256

  /** File contents as moved by RETR and STOR. */
  type Bytes = seq<byte>

  /** `Matches(pattern, entry)`: the regex engine's unanchored search, true when some
      substring of `entry` matches `pattern` (Rust `Regex::is_match`, Python
      `re.search`). The engine is foreign, so the model takes it as a parameter and
      assumes nothing about it. */
  type Matcher = (string, string) -> bool
}

=== FILE: paths.dfy ===
/** The upload name of a source path: the text after its last '/'. */
module Paths {
  import Text

  /** The index just after the last '/' of `p`, or 0 when `p` has none
      (`p.rfind('/') + 1` in CPython's `posixpath.basename`). */
  function NameStart(p: string): (k: nat)
    ensures k <= |p|
    ensures k == 0 || p[k - 1] == '/'
    ensures forall j :: k <= j < |p| ==> p[j] != '/'
  {
    if p == [] then 0
    else if p[|p| - 1] == '/' then |p|
    else NameStart(p[..|p| - 1])
  }

  /** `os.path.basename(p)` on a POSIX system: the text after the last '/'. */
  function BaseName(p: string): (name: string)
    ensures '/' !in name && |name| <= |p|
  {
    p[NameStart(p)..]
  }

  /** `p.split('/').last().unwrap()` in Rust: the last piece of the split, which
      always exists. */
  function LastPiece(p: string): string
  {
    var parts := Text.Split(p, '/');
    parts[|parts| - 1]
  }

  /** The base name is the longest suffix of `p` without '/': it starts `p` or
      follows a '/'. A path without '/' is its own base name, and a trailing '/'
      gives the empty name. */
  lemma BaseNameShape(p: string)
    ensures var name := BaseName(p);
      && '/' !in name
      && p[|p| - |name|..] == name
      && (|name| == |p| || p[|p| - |name| - 1] == '/')
      && ('/' !in p ==> name == p)
      && (|p| > 0 && p[|p| - 1] == '/' ==> name == [])
  {
  }

  /** A suffix of `p` without '/' that starts `p` or follows a '/' is the base name. */
  lemma SuffixIsBaseName(p: string, name: string)
    requires '/' !in name
    requires |name| <= |p| && p[|p| - |name|..] == name
    requires |name| == |p| || p[|p| - |name| - 1] == '/'
    ensures name == BaseName(p)
  {
    var m := |p| - |name|;
    var k := NameStart(p);
    forall j | m <= j < |p| ensures p[j] != '/' {
      assert p[j] == name[j - m];
    }
    assert k == 0 || p[k - 1] == '/';
    assert m == 0 || p[m - 1] == '/';
    assert m == k;
  }

  /** The Rust and Python derivations of the upload name agree on every path. */
  lemma LastPieceIsBaseName(p: string)
    ensures LastPiece(p) == BaseName(p)
  {
    var parts := Text.Split(p, '/');
    var last := parts[|parts| - 1];
    if |parts| == 1 {
      assert p == last;
    } else {
      Text.JoinLast(parts, '/');
      var front := Text.Join(parts[..|parts| - 1], '/');
      assert p == front + ['/'] + last;
      assert p[|p| - |last|..] == last;
    }
    SuffixIsBaseName(p, last);
  }
}

=== FILE: py_int.dfy ===
/** Python's `int(text)` on a string, base 10: surrounding white space, an optional
    sign, and decimal digits with single underscores allowed between digits. */
module PyInt {
  import opened Wrappers

  /** The characters `int()` strips: among ASCII characters only the C-locale white
      space `\t \n \v \f \r` and the space (U+001C to U+001F are left in place and
      make the text malformed), and beyond ASCII every character `str.isspace()`
      accepts, which `int()` first turns into a space. */
  predicate IsSpace(c: char) {
    || ('\t' <= c <= '\r')
    || c == ' '
    || c == '\U{85}' || c == '\U{A0}' || c == '\U{1680}'
    || ('\U{2000}' <= c <= '\U{200A}')
    || c == '\U{2028}' || c == '\U{2029}' || c == '\U{202F}' || c == '\U{205F}' || c == '\U{3000}'
  }

  predicate IsDigit(c: char) {
    '0' <= c <= '9'
  }

  /** `s` without its leading and trailing white space. */
  function Strip(s: string): (t: string)
    ensures |t| <= |s|
    ensures t != [] ==> !IsSpace(t[0]) && !IsSpace(t[|t| - 1])
    ensures s != [] && !IsSpace(s[0]) && !IsSpace(s[|s| - 1]) ==> t == s
    decreases |s|
  {
    if s == [] then []
    else if IsSpace(s[0]) then Strip(s[1..])
    else if IsSpace(s[|s| - 1]) then Strip(s[..|s| - 1])
    else s
  }

  /** Digits, with an underscore only between two digits. */
  predicate WellFormedDigits(s: string) {
    && s != []
    && IsDigit(s[0]) && IsDigit(s[|s| - 1])
    && (forall i :: 0 <= i < |s| ==> IsDigit(s[i]) || s[i] == '_')
    && (forall i :: 0 <= i < |s| - 1 ==> s[i] == '_' ==> s[i + 1] != '_')
  }

  /** The value of a run of digits, underscores ignored. */
  function DigitsValue(s: string): nat
  {
    if s == [] then 0
    else if s[|s| - 1] == '_' then DigitsValue(s[..|s| - 1])
    else DigitsValue(s[..|s| - 1]) * 10 + (if IsDigit(s[|s| - 1]) then s[|s| - 1] as nat - '0' as nat else 0)
  }

  /** `int(s)`; `None` is the ValueError it raises. */
  function ParseInt(s: string): Option<int>
  {
    var t := Strip(s);
    var negative := t != [] && t[0] == '-';
    var body := if t != [] && (t[0] == '-' || t[0] == '+') then t[1..] else t;
    if WellFormedDigits(body) then
      Some(if negative then -(DigitsValue(body) as int) else DigitsValue(body) as int)
    else None
  }

  /** The decimal digits of `n`, as `str(n)` writes them. */
  function Digits(n: nat): (s: string)
    ensures s != [] && forall i :: 0 <= i < |s| ==> IsDigit(s[i])
  {
    var d := ('0' as int + n % 10) as char;
    if n < 10 then [d] else Digits(n / 10) + [d]
  }

  /** `str(n)`. */
  function Show(n: int): string
  {
    if n < 0 then "-" + Digits(-n) else Digits(n)
  }

  lemma {:induction false} DigitsValueOfDigits(n: nat)
    ensures DigitsValue(Digits(n)) == n
  {
    var s := Digits(n);
    if n >= 10 {
      DigitsValueOfDigits(n / 10);
      assert s[..|s| - 1] == Digits(n / 10);
    }
  }

  /** `str(n)` of a natural number is a well-formed run of digits worth `n`, with no
      white space to strip. */
  lemma DigitsParse(m: nat)
    ensures WellFormedDigits(Digits(m)) && DigitsValue(Digits(m)) == m
    ensures Strip(Digits(m)) == Digits(m)
  {
    DigitsValueOfDigits(m);
    var d := Digits(m);
    assert IsDigit(d[0]) && IsDigit(d[|d| - 1]);
  }

  lemma ParseIntUnsigned(d: string)
    requires WellFormedDigits(d) && Strip(d) == d
    ensures ParseInt(d) == Some(DigitsValue(d) as int)
  {
  }

  lemma ParseIntNegative(d: string)
    requires WellFormedDigits(d)
    ensures ParseInt("-" + d) == Some(-(DigitsValue(d) as int))
  {
    var s := "-" + d;
    assert s[0] == '-' && s[|s| - 1] == d[|d| - 1];
    assert Strip(s) == s;
    assert s[1..] == d;
  }

  /** `int(str(n)) == n` for every integer. */
  lemma ParseIntShow(n: int)
    ensures ParseInt(Show(n)) == Some(n)
  {
    var m := if n < 0 then -n else n;
    var d := Digits(m);
    DigitsParse(m);
    if n < 0 {
      ParseIntNegative(d);
      assert Show(n) == "-" + d;
    } else {
      ParseIntUnsigned(d);
      assert Show(n) == d;
    }
  }

  /** White space around the text does not change what `int()` reads. */
  lemma {:induction false} ParseIntIgnoresSpace(s: string, c: char)
    requires IsSpace(c)
    ensures ParseInt([c] + s) == ParseInt(s)
    ensures ParseInt(s + [c]) == ParseInt(s)
  {
    StripSpaceAround(s, c);
  }

  lemma {:induction false} StripSpaceAround(s: string, c: char)
    requires IsSpace(c)
    ensures Strip([c] + s) == Strip(s)
    ensures Strip(s + [c]) == Strip(s)
    decreases |s|
  {
    assert ([c] + s)[1..] == s;
    if s != [] {
      var sc := s + [c];
      assert sc[..|sc| - 1] == s;
      if IsSpace(s[0]) {
        assert sc[1..] == s[1..] + [c];
        StripSpaceAround(s[1..], c);
      }
    } else {
      assert ([c] + s)[1..] == [];
    }
  }

  /** The ASCII information separators are not white space to `int()`: a leading
      U+001C is kept and makes the text malformed. */
  lemma SeparatorNotStripped()
    ensures !IsSpace('\U{1C}')
    ensures ParseInt("\U{1C}21") == None
    ensures ParseInt(" 21") == Some(21)
  {
    assert Strip("\U{1C}21") == "\U{1C}21";
    assert Strip(" 21") == "21" by {
      assert " 21"[1..] == "21";
    }
    assert DigitsValue("21"[..1]) == 2;
  }
}

=== FILE: py_main.dfy ===
/** The Python variant (`src/main.py`): the `FTPHandler` class and the command that
    drives it. The servers are oracles, as in the Rust model; a Python exception is
    the `Err` of a `Result`. */
module PyMain {
  import opened Wrappers
  import opened Seqs
  import opened DateTimes
  import opened Ftp
  import Text
  import Paths
  import PyInt
  import PyTimeVal

  /** The exceptions the modelled code lets escape. */
  datatype PyError =
    | HostNotPair(host: string)        // unpacking `host.split(":")` into two names fails
    | PortNotInteger(port: string)     // `int(port)` raises
    | MdtmRefused(file: string)        // `sendcmd("MDTM ...")` raises
    | TimeValMalformed(file: string)   // `strptime` rejects the reply text
    | CwdRefused(dir: string)          // `cwd(remote_path)` on the target raises
    | TimeArgMalformed(arg: string)    // `parse_datetime` rejects a command-line bound

  /** Where `connect` is sent. */
  datatype Endpoint = Endpoint(address: string, port: int)

  // ---------------------------------------------------------------------------
  // `__enter__`: the "address:port" form of the host option

  function SplitHost(host: string): (r: Result<Endpoint, PyError>)
    ensures (r.Err? && r.error.HostNotPair?) <==> Text.Count(host, ':') != 1
    ensures r.Ok? ==>
      var n := |r.value.address|;
      && n < |host|
      && host[..n] == r.value.address
      && host[n] == ':'
      && ':' !in r.value.address
      && ':' !in host[n + 1..]
      && PyInt.ParseInt(host[n + 1..]) == Some(r.value.port)
    ensures Text.Count(host, ':') == 1 && PyInt.ParseInt(Text.Split(host, ':')[1]).Some? ==> r.Ok?
  {
    var parts := Text.Split(host, ':');
    if |parts| != 2 then Err(HostNotPair(host))
    else
      assert parts[1..] == [parts[1]];
      assert Text.Join(parts[1..], ':') == parts[1];
      assert host == parts[0] + [':'] + parts[1];
      assert host[|parts[0]| + 1..] == parts[1];
      match PyInt.ParseInt(parts[1])
      case None => Err(PortNotInteger(parts[1]))
      case Some(port) => Ok(Endpoint(parts[0], port))
  }

  /** An address without a colon, a colon and `str(port)` give back that address
      and port. */
  lemma SplitHostRoundTrip(address: string, port: int)
    requires ':' !in address
    ensures SplitHost(address + ":" + PyInt.Show(port)) == Ok(Endpoint(address, port))
  {
    var portText := PyInt.Show(port);
    assert ':' !in portText by {
      if port < 0 {
        assert portText == "-" + PyInt.Digits(-port);
      }
    }
    Text.SplitAfterPiece(address, ':', portText);
    Text.SplitPiece(portText, ':');
    assert address + ":" + portText == address + [':'] + portText;
    PyInt.ParseIntShow(port);
  }

  // ---------------------------------------------------------------------------
  // `get_modified_time`

  /** The reply line `sendcmd("MDTM " + file)` returns, or `None` when it raises. */
  type MdtmReplies = string -> Option<string>

  function GetModifiedTime(replies: MdtmReplies, file: string): (r: Result<DateTime, PyError>)
    ensures r.Ok? ==> Valid(r.value)
    ensures r.Ok? ==> replies(file).Some? && 9 <= |PyTimeVal.DropCode(replies(file).value)| <= 14
    ensures r.Err? <==> replies(file).None? || PyTimeVal.ParseMdtmReply(replies(file).value).None?
    ensures r.Err? ==> (r.error.MdtmRefused? || r.error.TimeValMalformed?) && r.error.file == file
    ensures r.Err? ==> (r.error.MdtmRefused? <==> replies(file).None?)
    ensures r.Ok? ==> r.value == PyTimeVal.ParseMdtmReply(replies(file).value).value
  {
    match replies(file)
    case None => Err(MdtmRefused(file))
    case Some(reply) =>
      match PyTimeVal.ParseMdtmReply(reply)
      case None => Err(TimeValMalformed(file))
      case Some(t) => Ok(t)
  }

  /** A well-formed "213 YYYYMMDDHHMMSS" reply is read back as the time it carries. */
  lemma GetModifiedTimeReadsReply(replies: MdtmReplies, file: string, t: DateTime)
    requires Valid(t)
    requires replies(file) == Some(PyTimeVal.MdtmReply(t))
    ensures GetModifiedTime(replies, file) == Ok(t)
  {
    PyTimeVal.MdtmReplyRoundTrip(t);
  }

  // ---------------------------------------------------------------------------
  // `list_files`

  /** What `list_files` is asked for, besides the listing. */
  datatype Query = Query(
    pattern: string,
    matches: Matcher,
    replies: MdtmReplies,
    start: Option<DateTime>,
    end: Option<DateTime>)

  /** `if start_time or end_time`: a datetime is always true, so a bound is present. */
  predicate Bounded(q: Query) {
    q.start.Some? || q.end.Some?
  }

  /** Neither `modified_time < start_time` nor `modified_time > end_time`. */
  predicate InBounds(q: Query, t: DateTime) {
    !(q.start.Some? && Lt(t, q.start.value)) && !(q.end.Some? && Lt(q.end.value, t))
  }

  /** The entry matches and its modification time is asked for but cannot be had. */
  predicate Raises(q: Query, f: string) {
    q.matches(q.pattern, f) && Bounded(q) && GetModifiedTime(q.replies, f).Err?
  }

  /** The entry ends up in the result. */
  predicate Kept(q: Query, f: string) {
    && q.matches(q.pattern, f)
    && (!Bounded(q) || (GetModifiedTime(q.replies, f).Ok? && InBounds(q, GetModifiedTime(q.replies, f).value)))
  }

  function KeptBy(q: Query): string -> bool {
    f => Kept(q, f)
  }

  predicate NoneRaise(q: Query, listing: seq<string>) {
    forall f :: f in listing ==> !Raises(q, f)
  }

  /** `listing[i]` is the first entry whose time query raises. */
  predicate FirstRaise(q: Query, listing: seq<string>, i: int) {
    && 0 <= i < |listing|
    && Raises(q, listing[i])
    && forall j :: 0 <= j < i ==> !Raises(q, listing[j])
  }

  function Prepend(f: string, r: Result<seq<string>, PyError>): Result<seq<string>, PyError> {
    match r
    case Ok(files) => Ok([f] + files)
    case Err(e) => Err(e)
  }

  /** How the first entry contributes to the filter and to the failure condition. */
  lemma ListStep(q: Query, listing: seq<string>)
    requires listing != []
    ensures NoneRaise(q, listing) <==> !Raises(q, listing[0]) && NoneRaise(q, listing[1..])
    ensures Filter(KeptBy(q), listing) ==
      if Kept(q, listing[0]) then [listing[0]] + Filter(KeptBy(q), listing[1..])
      else Filter(KeptBy(q), listing[1..])
  {
    assert listing == [listing[0]] + listing[1..];
  }

  function ListFiles(listing: seq<string>, q: Query): (r: Result<seq<string>, PyError>)
    ensures r.Ok? <==> NoneRaise(q, listing)
    ensures r.Ok? ==> r.value == Filter(KeptBy(q), listing)
    decreases |listing|
  {
    if listing == [] then Ok([])
    else
      var f := listing[0];
      ListStep(q, listing);
      var rest := ListFiles(listing[1..], q);
      if !q.matches(q.pattern, f) then rest
      else if !Bounded(q) then Prepend(f, rest)
      else
        match GetModifiedTime(q.replies, f)
        case Err(e) => Err(e)
        case Ok(t) =>
          if q.start.Some? && Lt(t, q.start.value) then rest
          else if q.end.Some? && Lt(q.end.value, t) then rest
          else Prepend(f, rest)
  }

  /** When `list_files` raises, the exception is the one of the first entry whose
      modification time cannot be read; the entries before it were all readable. */
  lemma {:induction false} ListFilesReportsFirstFailure(listing: seq<string>, q: Query)
    requires ListFiles(listing, q).Err?
    ensures exists i ::
      && FirstRaise(q, listing, i)
      && ListFiles(listing, q).error == GetModifiedTime(q.replies, listing[i]).error
    decreases |listing|
  {
    var f := listing[0];
    if Raises(q, f) {
      assert FirstRaise(q, listing, 0);
    } else {
      ListFilesReportsFirstFailure(listing[1..], q);
      var i :| FirstRaise(q, listing[1..], i)
        && ListFiles(listing[1..], q).error == GetModifiedTime(q.replies, listing[1..][i]).error;
      assert listing[1..][i] == listing[i + 1];
      assert FirstRaise(q, listing, i + 1);
    }
  }

  /** Without bounds no MDTM is sent: the result is the pattern filter whatever the
      server would answer. */
  lemma UnboundedNeverQueries(listing: seq<string>, q: Query, replies: MdtmReplies)
    requires !Bounded(q)
    ensures ListFiles(listing, q) == ListFiles(listing, q.(replies := replies))
    ensures ListFiles(listing, q) == Ok(Filter(f => q.matches(q.pattern, f), listing))
  {
    var q' := q.(replies := replies);
    assert NoneRaise(q, listing) && NoneRaise(q', listing);
    FilterExt(KeptBy(q), KeptBy(q'), listing);
    FilterExt(KeptBy(q), f => q.matches(q.pattern, f), listing);
  }

  // ---------------------------------------------------------------------------
  // `transfer_files`

  /** An `io.BytesIO`: its contents and its stream position. */
  datatype Buffer = Buffer(data: Bytes, pos: nat)

  /** `buffer.write(chunk)`: overwrites from the position on, extends the contents when
      the chunk runs past their end, and leaves the position after the chunk. */
  function Write(b: Buffer, chunk: Bytes): (b': Buffer)
    requires b.pos <= |b.data|
    ensures b'.pos == b.pos + |chunk| <= |b'.data|
    ensures b'.data[..b.pos] == b.data[..b.pos]
    ensures b'.data[b.pos..b'.pos] == chunk
    ensures |b'.data| == if b'.pos < |b.data| then |b.data| else b'.pos
    ensures b'.pos < |b.data| ==> b'.data[b'.pos..] == b.data[b'.pos..]
  {
    var stop := b.pos + |chunk|;
    Buffer(b.data[..b.pos] + chunk + (if stop < |b.data| then b.data[stop..] else []), stop)
  }

  /** `retrbinary` on the source: the bytes its callback was handed, and whether it
      returned normally (otherwise it raised after delivering them). */
  datatype RetrReply = RetrReply(delivered: Bytes, ok: bool)

  /** `storbinary` on the target: it returned, or it raised after reading `read` bytes
      of the buffer (none when the STOR command itself is refused). */
  datatype StorReply = Stored | StorFailed(read: nat)

  datatype PyServers = PyServers(
    retr: string -> RetrReply,
    cwdOk: string -> bool,
    stor: (string, Bytes) -> StorReply)

  /** What one pass of the loop did: the RETR raised, or a STOR was sent with
      `payload` (everything the buffer held) and did or did not complete. */
  datatype FileOutcome =
    | RetrFailed(file: string)
    | Sent(file: string, name: string, payload: Bytes, stored: bool)

  datatype Transfer = Transfer(outcomes: seq<FileOutcome>, buffer: Buffer)

  /** One pass of the loop body on the shared buffer. */
  function TransferOne(f: string, srv: PyServers, b: Buffer): (t: Transfer)
    requires b.pos <= |b.data|
    ensures t.buffer.pos <= |t.buffer.data|
    ensures |t.outcomes| == 1 && t.outcomes[0].file == f
    ensures t.outcomes[0].RetrFailed? <==> !srv.retr(f).ok
    ensures t.outcomes[0].Sent? ==> t.outcomes[0].name == Paths.BaseName(f)
    ensures t.outcomes[0].Sent? ==>
      var end := b.pos + |srv.retr(f).delivered|;
      && |t.outcomes[0].payload| == (if end < |b.data| then |b.data| else end)
      && t.outcomes[0].payload[..end] == b.data[..b.pos] + srv.retr(f).delivered
      && (end < |b.data| ==> t.outcomes[0].payload[end..] == b.data[end..])
    ensures !srv.retr(f).ok ==> t.buffer == Write(b, srv.retr(f).delivered)
    ensures t.outcomes[0].Sent? ==>
      var o := t.outcomes[0];
      match srv.stor(o.name, o.payload)
      case Stored => o.stored && t.buffer == Buffer(o.payload, |o.payload|)
      case StorFailed(read) =>
        !o.stored && t.buffer == Buffer(o.payload, if read < |o.payload| then read else |o.payload|)
  {
    var name := Paths.BaseName(f);
    var reply := srv.retr(f);
    var written := Write(b, reply.delivered);
    if !reply.ok then Transfer([RetrFailed(f)], written)
    else
      var payload := written.data;
      match srv.stor(name, payload)
      case Stored => Transfer([Sent(f, name, payload, true)], Buffer(payload, |payload|))
      case StorFailed(read) =>
        Transfer([Sent(f, name, payload, false)], Buffer(payload, if read < |payload| then read else |payload|))
  }

  /** The `for` loop: an exception inside the body is printed and the loop goes on. */
  function TransferLoop(files: seq<string>, srv: PyServers, b: Buffer): (t: Transfer)
    requires b.pos <= |b.data|
    ensures t.buffer.pos <= |t.buffer.data|
    ensures |t.outcomes| == |files|
    decreases |files|
  {
    if files == [] then Transfer([], b)
    else
      var first := TransferOne(files[0], srv, b);
      var rest := TransferLoop(files[1..], srv, first.buffer);
      Transfer(first.outcomes + rest.outcomes, rest.buffer)
  }

  /** The loop goes on after a failure: the i-th outcome is about the i-th file, it
      is a RETR failure exactly when that RETR raised, and otherwise the file was
      sent under its base name. */
  lemma {:induction false} TransferLoopOutcomes(files: seq<string>, srv: PyServers, b: Buffer)
    requires b.pos <= |b.data|
    ensures var t := TransferLoop(files, srv, b);
      forall i :: 0 <= i < |files| ==>
        && t.outcomes[i].file == files[i]
        && (t.outcomes[i].RetrFailed? <==> !srv.retr(files[i]).ok)
        && (t.outcomes[i].Sent? ==> t.outcomes[i].name == Paths.BaseName(files[i]))
    decreases |files|
  {
    if files != [] {
      var first := TransferOne(files[0], srv, b);
      var rest := TransferLoop(files[1..], srv, first.buffer);
      TransferLoopOutcomes(files[1..], srv, first.buffer);
      var t := TransferLoop(files, srv, b);
      assert t.outcomes == first.outcomes + rest.outcomes;
      forall i | 1 <= i < |files| ensures t.outcomes[i] == rest.outcomes[i - 1] && files[i] == files[1..][i - 1] {
      }
    }
  }

  /** `transfer_files`: one buffer for the whole run, the target directory entered once
      before the loop. */
  function TransferFiles(files: seq<string>, remotePath: string, srv: PyServers): (r: Result<seq<FileOutcome>, PyError>)
    ensures r.Err? <==> !srv.cwdOk(remotePath)
    ensures r.Err? ==> r.error == CwdRefused(remotePath)
    ensures r.Ok? ==> |r.value| == |files|
  {
    if !srv.cwdOk(remotePath) then Err(CwdRefused(remotePath))
    else Ok(TransferLoop(files, srv, Buffer([], 0)).outcomes)
  }

  /** The pass ended without a failed STOR: the RETR raised, or the STOR completed. */
  predicate Completed(o: FileOutcome) {
    o.RetrFailed? || o.stored
  }

  /** The bytes each RETR handed to the callback, file by file. */
  function Deliveries(files: seq<string>, srv: PyServers): (ds: seq<Bytes>)
    ensures |ds| == |files|
    ensures forall i :: 0 <= i < |files| ==> ds[i] == srv.retr(files[i]).delivered
  {
    if files == [] then [] else [srv.retr(files[0]).delivered] + Deliveries(files[1..], srv)
  }

  /** With the position at the end of the buffer, a pass sends everything before it
      followed by what RETR delivered, and, unless its STOR failed, leaves the
      position at the end again. */
  lemma TransferOneAppends(f: string, srv: PyServers, d: Bytes)
    ensures var c := srv.retr(f).delivered;
      var t := TransferOne(f, srv, Buffer(d, |d|));
      && (t.outcomes[0].Sent? ==> t.outcomes[0].payload == d + c)
      && (Completed(t.outcomes[0]) ==> t.buffer == Buffer(d + c, |d + c|))
  {
    var c := srv.retr(f).delivered;
    assert Write(Buffer(d, |d|), c) == Buffer(d + c, |d + c|);
  }

  lemma AppendAssoc(a: Bytes, b: Bytes, c: Bytes)
    ensures (a + b) + c == a + (b + c)
  {
  }

  lemma FlattenCons(c: Bytes, rest: seq<Bytes>)
    ensures Flatten([c] + rest) == c + Flatten(rest)
  {
    assert ([c] + rest)[1..] == rest;
  }

  lemma FlattenConsPrefix(c: Bytes, rest: seq<Bytes>, i: nat)
    requires i <= |rest|
    ensures Flatten(([c] + rest)[..i + 1]) == c + Flatten(rest[..i])
  {
    assert ([c] + rest)[..i + 1] == [c] + rest[..i];
  }

  /** The loop's outcomes after the first are those of the loop over the other files,
      started from the buffer the first pass left. */
  lemma LoopOutcomesShift(files: seq<string>, srv: PyServers, b: Buffer, k: nat)
    requires b.pos <= |b.data| && 0 < k < |files|
    ensures var first := TransferOne(files[0], srv, b);
      TransferLoop(files, srv, b).outcomes[k] == TransferLoop(files[1..], srv, first.buffer).outcomes[k - 1]
  {
  }

  /** When no STOR of the run failed, the buffer is never truncated: it ends holding
      everything retrieved, with the position at its end. */
  lemma {:induction false} TransferBufferAccumulates(files: seq<string>, srv: PyServers, d: Bytes)
    requires forall k :: 0 <= k < |files| ==> Completed(TransferLoop(files, srv, Buffer(d, |d|)).outcomes[k])
    ensures var all := d + Flatten(Deliveries(files, srv));
      TransferLoop(files, srv, Buffer(d, |d|)).buffer == Buffer(all, |all|)
    decreases |files|
  {
    if files != [] {
      var c := srv.retr(files[0]).delivered;
      var first := TransferOne(files[0], srv, Buffer(d, |d|));
      assert TransferLoop(files, srv, Buffer(d, |d|)).outcomes[0] == first.outcomes[0];
      TransferOneAppends(files[0], srv, d);
      assert first.buffer == Buffer(d + c, |d + c|);
      var tr := TransferLoop(files[1..], srv, first.buffer);
      assert TransferLoop(files, srv, Buffer(d, |d|)).buffer == tr.buffer;
      forall k | 0 <= k < |files[1..]| ensures Completed(tr.outcomes[k]) {
        LoopOutcomesShift(files, srv, Buffer(d, |d|), k + 1);
      }
      TransferBufferAccumulates(files[1..], srv, d + c);
      var rest := Deliveries(files[1..], srv);
      assert Deliveries(files, srv) == [c] + rest;
      FlattenCons(c, rest);
      AppendAssoc(d, c, Flatten(rest));
    }
  }

  /** The bytes retrieved for files 0..i, concatenated. */
  function Received(files: seq<string>, srv: PyServers, i: nat): Bytes
    requires i < |files|
  {
    Flatten(Deliveries(files, srv)[..i + 1])
  }

  lemma ReceivedCons(files: seq<string>, srv: PyServers, i: nat)
    requires i < |files|
    ensures Received(files, srv, i) ==
      srv.retr(files[0]).delivered + (if i == 0 then [] else Received(files[1..], srv, i - 1))
  {
    var c := srv.retr(files[0]).delivered;
    var rest := Deliveries(files[1..], srv);
    assert Deliveries(files, srv) == [c] + rest;
    FlattenConsPrefix(c, rest, i);
    if i == 0 {
      assert rest[..0] == [];
    }
  }

  lemma PayloadFirst(files: seq<string>, srv: PyServers, d: Bytes)
    requires files != []
    ensures var o := TransferLoop(files, srv, Buffer(d, |d|)).outcomes[0];
      o.Sent? ==> o.payload == d + Received(files, srv, 0)
  {
    var first := TransferOne(files[0], srv, Buffer(d, |d|));
    TransferOneAppends(files[0], srv, d);
    assert TransferLoop(files, srv, Buffer(d, |d|)).outcomes[0] == first.outcomes[0];
    ReceivedCons(files, srv, 0);
  }

  lemma PayloadLater(files: seq<string>, srv: PyServers, d: Bytes, i: nat)
    requires 0 < i < |files|
    requires Completed(TransferOne(files[0], srv, Buffer(d, |d|)).outcomes[0])
    requires var c := srv.retr(files[0]).delivered;
      var o := TransferLoop(files[1..], srv, Buffer(d + c, |d + c|)).outcomes[i - 1];
      o.Sent? ==> o.payload == (d + c) + Received(files[1..], srv, i - 1)
    ensures var o := TransferLoop(files, srv, Buffer(d, |d|)).outcomes[i];
      o.Sent? ==> o.payload == d + Received(files, srv, i)
  {
    var c := srv.retr(files[0]).delivered;
    var first := TransferOne(files[0], srv, Buffer(d, |d|));
    TransferOneAppends(files[0], srv, d);
    var tr := TransferLoop(files[1..], srv, first.buffer);
    LoopOutcomesShift(files, srv, Buffer(d, |d|), i);
    ReceivedCons(files, srv, i);
    AppendAssoc(d, c, Received(files[1..], srv, i - 1));
  }

  /** When no earlier STOR of the run failed, the i-th upload carries the contents of
      files 0..i concatenated, not the i-th file alone. */
  lemma {:induction false} TransferPayloadAccumulates(files: seq<string>, srv: PyServers, d: Bytes, i: nat)
    requires i < |files|
    requires forall k :: 0 <= k < i ==> Completed(TransferLoop(files, srv, Buffer(d, |d|)).outcomes[k])
    ensures var o := TransferLoop(files, srv, Buffer(d, |d|)).outcomes[i];
      o.Sent? ==> o.payload == d + Received(files, srv, i)
    decreases i
  {
    if i == 0 {
      PayloadFirst(files, srv, d);
    } else {
      var c := srv.retr(files[0]).delivered;
      var first := TransferOne(files[0], srv, Buffer(d, |d|));
      assert TransferLoop(files, srv, Buffer(d, |d|)).outcomes[0] == first.outcomes[0];
      TransferOneAppends(files[0], srv, d);
      assert first.buffer == Buffer(d + c, |d + c|);
      forall k | 0 <= k < i - 1 ensures Completed(TransferLoop(files[1..], srv, Buffer(d + c, |d + c|)).outcomes[k]) {
        LoopOutcomesShift(files, srv, Buffer(d, |d|), k + 1);
      }
      TransferPayloadAccumulates(files[1..], srv, d + c, i - 1);
      PayloadLater(files, srv, d, i);
    }
  }

  /** `transfer_files` as written, once the target directory is entered: an upload
      that follows no failed STOR carries files 0..i, concatenated. */
  lemma TransferFilesAccumulates(files: seq<string>, remotePath: string, srv: PyServers)
    requires srv.cwdOk(remotePath)
    ensures var r := TransferFiles(files, remotePath, srv);
      && r.Ok?
      && forall i :: 0 <= i < |files| && r.value[i].Sent? && (forall k :: 0 <= k < i ==> Completed(r.value[k])) ==>
           r.value[i].payload == Received(files, srv, i)
  {
    var outs := TransferLoop(files, srv, Buffer([], 0)).outcomes;
    forall i | 0 <= i < |files| && outs[i].Sent? && (forall k :: 0 <= k < i ==> Completed(outs[k]))
      ensures outs[i].payload == Received(files, srv, i)
    {
      TransferPayloadAccumulates(files, srv, [], i);
      assert [] + Received(files, srv, i) == Received(files, srv, i);
    }
  }

  // ---------------------------------------------------------------------------
  // The shared buffer, as written and as intended

  /** Two files retrieved in full and stored: the second upload is the first file's
      bytes followed by the second's. */
  lemma SecondUploadCarriesFirstFile(f1: string, f2: string, remotePath: string, srv: PyServers, c1: Bytes, c2: Bytes)
    requires srv.cwdOk(remotePath)
    requires srv.retr(f1) == RetrReply(c1, true) && srv.retr(f2) == RetrReply(c2, true)
    requires srv.stor(Paths.BaseName(f1), c1) == Stored && srv.stor(Paths.BaseName(f2), c1 + c2) == Stored
    requires c1 != []
    ensures TransferFiles([f1, f2], remotePath, srv).Ok?
    ensures TransferFiles([f1, f2], remotePath, srv).value[1] == Sent(f2, Paths.BaseName(f2), c1 + c2, true)
    ensures c1 + c2 != c2
  {
    var files := [f1, f2];
    TransferOneAppends(f1, srv, []);
    assert [] + c1 == c1;
    TransferOneAppends(f2, srv, c1);
    var first := TransferOne(f1, srv, Buffer([], 0));
    var second := TransferOne(f2, srv, first.buffer);
    assert files[1..] == [f2] && [f2][1..] == [];
    assert TransferLoop([f2], srv, first.buffer).outcomes == second.outcomes;
    assert TransferLoop(files, srv, Buffer([], 0)).outcomes == first.outcomes + second.outcomes;
    assert |c1 + c2| != |c2|;
  }

  /** A STOR refused before reading leaves the position at 0, so the next file
      overwrites the front of the buffer and the stale tail of the longer earlier
      file is uploaded after it. */
  lemma RefusedStorLeavesStaleTail(f1: string, f2: string, remotePath: string, srv: PyServers, c1: Bytes, c2: Bytes)
    requires srv.cwdOk(remotePath)
    requires srv.retr(f1) == RetrReply(c1, true) && srv.retr(f2) == RetrReply(c2, true)
    requires srv.stor(Paths.BaseName(f1), c1) == StorFailed(0)
    requires |c2| < |c1|
    ensures TransferFiles([f1, f2], remotePath, srv).Ok?
    ensures var o := TransferFiles([f1, f2], remotePath, srv).value[1];
      o.Sent? && o.payload == c2 + c1[|c2|..]
  {
    var files := [f1, f2];
    var first := TransferOne(f1, srv, Buffer([], 0));
    assert Write(Buffer([], 0), c1) == Buffer(c1, |c1|);
    assert first.buffer == Buffer(c1, 0);
    var second := TransferOne(f2, srv, first.buffer);
    assert files[1..] == [f2] && [f2][1..] == [];
    assert TransferLoop([f2], srv, first.buffer).outcomes == second.outcomes;
    assert TransferLoop(files, srv, Buffer([], 0)).outcomes == first.outcomes + second.outcomes;
    assert Write(Buffer(c1, 0), c2).data == c2 + c1[|c2|..];
  }

  /** The evidently intended loop: a fresh buffer for every file, so each upload
      carries exactly the bytes retrieved for that file. */
  function TransferFilesFresh(files: seq<string>, remotePath: string, srv: PyServers): (r: Result<seq<FileOutcome>, PyError>)
    ensures r.Err? <==> !srv.cwdOk(remotePath)
    ensures r.Err? ==> r.error == CwdRefused(remotePath)
    ensures r.Ok? ==> |r.value| == |files|
    ensures r.Ok? ==> forall i :: 0 <= i < |files| ==>
      && r.value[i].file == files[i]
      && (r.value[i].RetrFailed? <==> !srv.retr(files[i]).ok)
      && (r.value[i].Sent? ==>
            && r.value[i].name == Paths.BaseName(files[i])
            && r.value[i].payload == srv.retr(files[i]).delivered)
  {
    if !srv.cwdOk(remotePath) then Err(CwdRefused(remotePath))
    else
      Ok(seq(|files|, i requires 0 <= i < |files| => TransferOne(files[i], srv, Buffer([], 0)).outcomes[0]))
  }

  // ---------------------------------------------------------------------------
  // `main`

  /** `parse_datetime("2024-01-01T00:00:00")` and `parse_datetime("2025-01-01T00:00:00")`. */
  const DefaultStart := DateTime(2024, 1, 1, 0, 0, 0)
  const DefaultEnd := DateTime(2025, 1, 1, 0, 0, 0)

  /** The option was given and is not empty: `if start_time` on a string. */
  predicate Given(arg: Option<string>) {
    arg.Some? && arg.value != ""
  }

  /** `parse_datetime(arg) if arg else parse_datetime(<default>)`, with `parse` standing
      for `dateutil.parser.parse` and the default written as the time it denotes. */
  function Bound(arg: Option<string>, parse: TimeParser, default: DateTime): (r: Result<DateTime, PyError>)
    ensures !Given(arg) ==> r == Ok(default)
    ensures Given(arg) ==> (r.Ok? <==> parse(arg.value).Some?)
    ensures Given(arg) && r.Ok? ==> r.value == parse(arg.value).value
  {
    if !Given(arg) then Ok(default)
    else match parse(arg.value)
      case None => Err(TimeArgMalformed(arg.value))
      case Some(t) => Ok(t)
  }

  /** The window `main` hands to `list_files`: the start bound is read first. */
  function MainWindow(startArg: Option<string>, endArg: Option<string>, parse: TimeParser): (r: Result<Window, PyError>)
    ensures r.Ok? <==> Bound(startArg, parse, DefaultStart).Ok? && Bound(endArg, parse, DefaultEnd).Ok?
    ensures r.Ok? ==> r.value == Window(Bound(startArg, parse, DefaultStart).value, Bound(endArg, parse, DefaultEnd).value)
    ensures r.Err? && Bound(startArg, parse, DefaultStart).Err? ==> r.error == Bound(startArg, parse, DefaultStart).error
    ensures r.Err? && Bound(startArg, parse, DefaultStart).Ok? ==> r.error == Bound(endArg, parse, DefaultEnd).error
  {
    match Bound(startArg, parse, DefaultStart)
    case Err(e) => Err(e)
    case Ok(start) =>
      match Bound(endArg, parse, DefaultEnd)
      case Err(e) => Err(e)
      case Ok(end) => Ok(Window(start, end))
  }

  /** Each bound comes from its own option: changing the end option never moves the
      start bound, and changing the start option never moves the end bound. */
  lemma BoundsIndependent(startArg: Option<string>, endArg: Option<string>, start2: Option<string>, end2: Option<string>, parse: TimeParser)
    requires MainWindow(startArg, endArg, parse).Ok?
    requires MainWindow(startArg, end2, parse).Ok? && MainWindow(start2, endArg, parse).Ok?
    ensures MainWindow(startArg, end2, parse).value.start == MainWindow(startArg, endArg, parse).value.start
    ensures MainWindow(start2, endArg, parse).value.end == MainWindow(startArg, endArg, parse).value.end
  {
  }

  /** Without options the window is the whole of 2024 and, since the end bound is
      inclusive, the single instant 2025-01-01 00:00:00. */
  lemma {:induction false} DefaultWindowShape(parse: TimeParser, t: DateTime)
    requires Valid(t)
    ensures MainWindow(None, None, parse) == Ok(Window(DefaultStart, DefaultEnd))
    ensures Contains(Window(DefaultStart, DefaultEnd), t) <==> t.year == 2024 || t == DefaultEnd
  {
    if t.year == 2024 {
      assert Le(DefaultStart, t) by {
        assert t.month >= 1 && t.day >= 1 && t.hour >= 0 && t.minute >= 0 && t.second >= 0;
      }
    }
  }

  /** The command as a whole, after both connections are open: the selection with both
      bounds always present, then the transfer into the target directory, each file
      uploaded from a fresh buffer as intended. */
  function Main(startArg: Option<string>, endArg: Option<string>, parse: TimeParser,
                listing: seq<string>, pattern: string, matches: Matcher, replies: MdtmReplies,
                targetPath: string, srv: PyServers): (r: Result<seq<FileOutcome>, PyError>)
    ensures MainWindow(startArg, endArg, parse).Err? ==> r.Err? && r.error.TimeArgMalformed?
    ensures MainWindow(startArg, endArg, parse).Err? ==> r == Err(MainWindow(startArg, endArg, parse).error)
    ensures r.Ok? ==> MainWindow(startArg, endArg, parse).Ok? && srv.cwdOk(targetPath)
    ensures MainWindow(startArg, endArg, parse).Ok? ==>
      var w := MainWindow(startArg, endArg, parse).value;
      var l := ListFiles(listing, Query(pattern, matches, replies, Some(w.start), Some(w.end)));
      && (r.Ok? <==> l.Ok? && srv.cwdOk(targetPath))
      && (l.Err? ==> r == Err(l.error))
      && (l.Ok? && !srv.cwdOk(targetPath) ==> r == Err(CwdRefused(targetPath)))
      && (r.Ok? ==> |r.value| == |l.value| && forall i :: 0 <= i < |r.value| ==> r.value[i].file == l.value[i])
  {
    match MainWindow(startArg, endArg, parse)
    case Err(e) => Err(e)
    case Ok(w) =>
      var q := Query(pattern, matches, replies, Some(w.start), Some(w.end));
      match ListFiles(listing, q)
      case Err(e) => Err(e)
      case Ok(selected) => TransferFilesFresh(selected, targetPath, srv)
  }

  /** Every file a successful run touches is listed, matches the pattern, and has a
      readable modification time inside the window; an uploaded file carries its own
      contents. */
  lemma MainSendsSelected(startArg: Option<string>, endArg: Option<string>, parse: TimeParser,
                          listing: seq<string>, pattern: string, matches: Matcher, replies: MdtmReplies,
                          targetPath: string, srv: PyServers)
    ensures var r := Main(startArg, endArg, parse, listing, pattern, matches, replies, targetPath, srv);
      r.Ok? ==>
        var w := MainWindow(startArg, endArg, parse).value;
        forall i :: 0 <= i < |r.value| ==>
          && r.value[i].file in listing
          && matches(pattern, r.value[i].file)
          && GetModifiedTime(replies, r.value[i].file).Ok?
          && Contains(w, GetModifiedTime(replies, r.value[i].file).value)
          && (r.value[i].Sent? ==> r.value[i].payload == srv.retr(r.value[i].file).delivered)
  {
    var r := Main(startArg, endArg, parse, listing, pattern, matches, replies, targetPath, srv);
    if r.Ok? {
      var w := MainWindow(startArg, endArg, parse).value;
      var q := Query(pattern, matches, replies, Some(w.start), Some(w.end));
      var selected := ListFiles(listing, q).value;
      forall i | 0 <= i < |r.value| ensures r.value[i].file in selected {
        assert selected[i] in selected;
      }
    }
  }

  /** The command exactly as written: `transfer_files` with its one shared buffer. */
  function MainAsWritten(startArg: Option<string>, endArg: Option<string>, parse: TimeParser,
                         listing: seq<string>, pattern: string, matches: Matcher, replies: MdtmReplies,
                         targetPath: string, srv: PyServers): (r: Result<seq<FileOutcome>, PyError>)
    ensures MainWindow(startArg, endArg, parse).Err? ==> r.Err? && r.error.TimeArgMalformed?
    ensures MainWindow(startArg, endArg, parse).Err? ==> r == Err(MainWindow(startArg, endArg, parse).error)
    ensures r.Ok? ==> MainWindow(startArg, endArg, parse).Ok? && srv.cwdOk(targetPath)
    ensures MainWindow(startArg, endArg, parse).Ok? ==>
      var w := MainWindow(startArg, endArg, parse).value;
      var l := ListFiles(listing, Query(pattern, matches, replies, Some(w.start), Some(w.end)));
      && (r.Ok? <==> l.Ok? && srv.cwdOk(targetPath))
      && (l.Err? ==> r == Err(l.error))
      && (l.Ok? && !srv.cwdOk(targetPath) ==> r == Err(CwdRefused(targetPath)))
      && (r.Ok? ==> |r.value| == |l.value| && forall i :: 0 <= i < |r.value| ==> r.value[i].file == l.value[i])
  {
    match MainWindow(startArg, endArg, parse)
    case Err(e) => Err(e)
    case Ok(w) =>
      var q := Query(pattern, matches, replies, Some(w.start), Some(w.end));
      match ListFiles(listing, q)
      case Err(e) => Err(e)
      case Ok(selected) =>
        TransferLoopOutcomes(selected, srv, Buffer([], 0));
        TransferFiles(selected, targetPath, srv)
  }

  /** The run as written and the run with a fresh buffer per file fail alike, with the
      same error, and touch the same files in the same order with the same RETR
      failures and target names; only what the uploads carry differs. */
  lemma MainAsWrittenAgrees(startArg: Option<string>, endArg: Option<string>, parse: TimeParser,
                            listing: seq<string>, pattern: string, matches: Matcher, replies: MdtmReplies,
                            targetPath: string, srv: PyServers)
    ensures var a := MainAsWritten(startArg, endArg, parse, listing, pattern, matches, replies, targetPath, srv);
      var m := Main(startArg, endArg, parse, listing, pattern, matches, replies, targetPath, srv);
      && (a.Err? <==> m.Err?)
      && (a.Err? ==> a.error == m.error)
      && (a.Ok? ==> |a.value| == |m.value| && forall i :: 0 <= i < |a.value| ==>
            && a.value[i].file == m.value[i].file
            && (a.value[i].RetrFailed? <==> m.value[i].RetrFailed?)
            && (a.value[i].Sent? ==> a.value[i].name == m.value[i].name))
  {
    var m := MainWindow(startArg, endArg, parse);
    if m.Ok? {
      var q := Query(pattern, matches, replies, Some(m.value.start), Some(m.value.end));
      if ListFiles(listing, q).Ok? && srv.cwdOk(targetPath) {
        TransferLoopOutcomes(ListFiles(listing, q).value, srv, Buffer([], 0));
      }
    }
  }
}

=== FILE: py_timeval.dfy ===
/** `FTPHandler.get_modified_time` in `src/main.py`: the MDTM reply with its first
    four characters dropped, read by `datetime.strptime(text, "%Y%m%d%H%M%S")`.

    CPython compiles that format to the regular expression
      (?P<Y>\d\d\d\d)(?P<m>1[0-2]|0[1-9]|[1-9])(?P<d>3[01]|[12]\d|0[1-9]|[1-9]| [1-9])
      (?P<H>2[0-3]|[0-1]\d|\d)(?P<M>[0-5]\d|\d)(?P<S>6[0-1]|[0-5]\d|\d)
    and applies it with `re.match`: alternatives are tried left to right with
    backtracking until the whole pattern matches once; text left over after that
    first match is an error ("unconverted data remains"), and so is a field value
    `datetime` rejects (day 31 in April, second 60, year 0). The well-formed reply
    of section 3 of RFC 3659 is "213 " followed by the fourteen digits
    YYYYMMDDHHMMSS. */
module PyTimeVal {
  import opened Wrappers
  import opened DateTimes
  import opened Seqs

  datatype Field = Year | Month | Day | Hour | Minute | Second

  /** The fields of "%Y%m%d%H%M%S", in order. */
  const Format: seq<Field> := [Year, Month, Day, Hour, Minute, Second]

  predicate TimeChar(c: char) {
    '0' <= c <= '9' || c == ' '
  }

  function MinWidth(f: Field): nat {
    if f == Year then 4 else 1
  }

  function MaxWidth(f: Field): nat {
    if f == Year then 4 else 2
  }

  /** `s[i]` exists and lies in `lo..hi`. */
  predicate CharIn(s: string, i: nat, lo: char, hi: char) {
    i < |s| && lo <= s[i] <= hi
  }

  /** A capture of width `w` for field `f` at the start of `s` is within the field's
      widths and made of digits and spaces. */
  predicate Fits(f: Field, s: string, w: nat) {
    MinWidth(f) <= w <= MaxWidth(f) && w <= |s| && forall j :: 0 <= j < w ==> TimeChar(s[j])
  }

  /** The widths of the field's alternatives that match at the start of `s`, in the
      order the regular expression engine tries them. */
  function Alternatives(f: Field, s: string): (ws: seq<nat>)
    ensures forall w :: w in ws ==> Fits(f, s, w)
  {
    match f
    case Year =>            // \d\d\d\d
      if CharIn(s, 0, '0', '9') && CharIn(s, 1, '0', '9') && CharIn(s, 2, '0', '9') && CharIn(s, 3, '0', '9')
      then [4] else []
    case Month =>           // 1[0-2] | 0[1-9] | [1-9]
      (if CharIn(s, 0, '1', '1') && CharIn(s, 1, '0', '2') then [2] else [])
      + (if CharIn(s, 0, '0', '0') && CharIn(s, 1, '1', '9') then [2] else [])
      + (if CharIn(s, 0, '1', '9') then [1] else [])
    case Day =>             // 3[01] | [12]\d | 0[1-9] | [1-9] | " [1-9]"
      (if CharIn(s, 0, '3', '3') && CharIn(s, 1, '0', '1') then [2] else [])
      + (if CharIn(s, 0, '1', '2') && CharIn(s, 1, '0', '9') then [2] else [])
      + (if CharIn(s, 0, '0', '0') && CharIn(s, 1, '1', '9') then [2] else [])
      + (if CharIn(s, 0, '1', '9') then [1] else [])
      + (if CharIn(s, 0, ' ', ' ') && CharIn(s, 1, '1', '9') then [2] else [])
    case Hour =>            // 2[0-3] | [0-1]\d | \d
      (if CharIn(s, 0, '2', '2') && CharIn(s, 1, '0', '3') then [2] else [])
      + (if CharIn(s, 0, '0', '1') && CharIn(s, 1, '0', '9') then [2] else [])
      + (if CharIn(s, 0, '0', '9') then [1] else [])
    case Minute =>          // [0-5]\d | \d
      (if CharIn(s, 0, '0', '5') && CharIn(s, 1, '0', '9') then [2] else [])
      + (if CharIn(s, 0, '0', '9') then [1] else [])
    case Second =>          // 6[0-1] | [0-5]\d | \d
      (if CharIn(s, 0, '6', '6') && CharIn(s, 1, '0', '1') then [2] else [])
      + (if CharIn(s, 0, '0', '5') && CharIn(s, 1, '0', '9') then [2] else [])
      + (if CharIn(s, 0, '0', '9') then [1] else [])
  }

  function SumMin(fields: seq<Field>): nat {
    if fields == [] then 0 else MinWidth(fields[0]) + SumMin(fields[1..])
  }

  function SumMax(fields: seq<Field>): nat {
    if fields == [] then 0 else MaxWidth(fields[0]) + SumMax(fields[1..])
  }

  /** What a match of `fields` at the start of `s` guarantees: one capture per
      field, within the field's widths, made of digits and spaces, together a
      prefix of `s`. */
  predicate Captures(fields: seq<Field>, s: string, caps: seq<string>) {
    && |caps| == |fields|
    && (forall i :: 0 <= i < |caps| ==> MinWidth(fields[i]) <= |caps[i]| <= MaxWidth(fields[i]))
    && SumMin(fields) <= |Flatten(caps)| <= SumMax(fields)
    && |Flatten(caps)| <= |s| && s[..|Flatten(caps)|] == Flatten(caps)
    && (forall j :: 0 <= j < |Flatten(caps)| ==> TimeChar(s[j]))
  }

  /** The first match of `fields` at the start of `s` in backtracking order. */
  function Search(fields: seq<Field>, s: string): (r: Option<seq<string>>)
    ensures r.Some? ==> Captures(fields, s, r.value)
    decreases |fields|, 1, 0
  {
    if fields == [] then Some([])
    else TryAlternatives(fields, s, Alternatives(fields[0], s))
  }

  /** Tries the remaining alternatives `ws` of the first field, each followed by a
      match of the other fields. */
  function TryAlternatives(fields: seq<Field>, s: string, ws: seq<nat>): (r: Option<seq<string>>)
    requires fields != []
    requires forall w :: w in ws ==> Fits(fields[0], s, w)
    ensures r.Some? ==> Captures(fields, s, r.value)
    decreases |fields|, 0, |ws|
  {
    if ws == [] then None
    else
      var n := ws[0];
      assert Fits(fields[0], s, n);
      match Search(fields[1..], s[n..])
      case Some(rest) =>
        CapturesCons(fields, s, n, rest);
        Some([s[..n]] + rest)
      case None => TryAlternatives(fields, s, ws[1..])
  }

  /** A capture for the first field followed by a match of the others is a match of
      all the fields. */
  lemma CapturesCons(fields: seq<Field>, s: string, n: nat, rest: seq<string>)
    requires fields != [] && Fits(fields[0], s, n)
    requires Captures(fields[1..], s[n..], rest)
    ensures Captures(fields, s, [s[..n]] + rest)
  {
    var caps := [s[..n]] + rest;
    assert caps[1..] == rest;
    assert Flatten(caps) == s[..n] + Flatten(rest);
    assert forall i :: 1 <= i < |caps| ==> caps[i] == rest[i - 1] && fields[i] == fields[1..][i - 1];
    assert s[..n + |Flatten(rest)|] == s[..n] + s[n..][..|Flatten(rest)|];
    forall j | 0 <= j < |Flatten(caps)| ensures TimeChar(s[j]) {
      if j >= n {
        assert s[j] == s[n..][j - n];
      }
    }
  }

  function DigitValue(c: char): nat {
    if '0' <= c <= '9' then c as nat - '0' as nat else 0
  }

  /** `int(text)` of a capture: its decimal value, a leading space counting as 0. */
  function Value(text: string): nat {
    if text == [] then 0 else Value(text[..|text| - 1]) * 10 + DigitValue(text[|text| - 1])
  }

  /** `datetime.strptime(s, "%Y%m%d%H%M%S")`; `None` is the ValueError it raises. */
  function Strptime(s: string): (r: Option<DateTime>)
    ensures r.Some? ==> Valid(r.value)
    ensures r.Some? ==> 9 <= |s| <= 14
    ensures r.Some? ==> forall i :: 0 <= i < |s| ==> TimeChar(s[i])
  {
    match Search(Format, s)
    case None => None
    case Some(caps) =>
      if |Flatten(caps)| != |s| then None
      else
        assert s[..|s|] == s;
        var t := DateTime(Value(caps[0]), Value(caps[1]), Value(caps[2]), Value(caps[3]), Value(caps[4]), Value(caps[5]));
        if Valid(t) then Some(t) else None
  }

  /** `reply[4:]`: the reply without its "213 " code. */
  function DropCode(reply: string): string {
    if |reply| <= 4 then [] else reply[4..]
  }

  /** What `get_modified_time` makes of an MDTM reply; `None` is the ValueError. */
  function ParseMdtmReply(reply: string): Option<DateTime> {
    Strptime(DropCode(reply))
  }

  // ---------------------------------------------------------------------------
  // The well-formed reply and the round trip

  function DigitChar(d: int): (c: char)
    requires 0 <= d <= 9
    ensures '0' <= c <= '9' && DigitValue(c) == d
  {
    ('0' as int + d) as char
  }

  lemma ValueDigits(text: string)
    requires |text| == 1
    ensures Value(text) == DigitValue(text[0])
  {
    assert text[..0] == [];
  }

  function Pad2(n: int): (text: string)
    requires 0 <= n < 100
    ensures |text| == 2 && Value(text) == n
    ensures '0' <= text[0] <= '9' && '0' <= text[1] <= '9'
  {
    var text := [DigitChar(n / 10), DigitChar(n % 10)];
    ValueDigits(text[..1]);
    assert text[..1][..0] == [];
    text
  }

  lemma ValueAppend2(x: string, y: string)
    requires |y| == 2
    ensures Value(x + y) == Value(x) * 100 + Value(y)
  {
    var xy := x + y;
    assert xy[..|xy| - 1] == x + [y[0]];
    assert (x + [y[0]])[..|x|] == x;
    assert Value(x + [y[0]]) == Value(x) * 10 + DigitValue(y[0]);
    assert Value(xy) == Value(x + [y[0]]) * 10 + DigitValue(y[1]);
    ValueDigits(y[..1]);
    assert Value(y) == DigitValue(y[0]) * 10 + DigitValue(y[1]);
  }

  function Pad4(n: int): (text: string)
    requires 0 <= n < 10000
    ensures |text| == 4 && Value(text) == n
    ensures forall i :: 0 <= i < 4 ==> '0' <= text[i] <= '9'
  {
    ValueAppend2(Pad2(n / 100), Pad2(n % 100));
    Pad2(n / 100) + Pad2(n % 100)
  }

  /** The fourteen-digit time-val YYYYMMDDHHMMSS of a valid time. */
  function TimeVal(t: DateTime): (text: string)
    requires Valid(t)
    ensures |text| == 14
  {
    Pad4(t.year) + (Pad2(t.month) + (Pad2(t.day) + (Pad2(t.hour) + (Pad2(t.minute) + Pad2(t.second)))))
  }

  /** The reply "213 YYYYMMDDHHMMSS" a server sends for a file stamped `t`. */
  function MdtmReply(t: DateTime): string
    requires Valid(t)
  {
    "213 " + TimeVal(t)
  }

  /** The zero-padded text of a valid field value is tried first, and wins. */
  lemma PaddedFieldFirst(f: Field, v: int, tail: string)
    requires f != Year && 0 <= v < 100
    requires f == Month ==> 1 <= v <= 12
    requires f == Day ==> 1 <= v <= 31
    requires f == Hour ==> v < 24
    requires f == Minute || f == Second ==> v < 60
    ensures var ws := Alternatives(f, Pad2(v) + tail); ws != [] && ws[0] == 2
  {
    var s := Pad2(v) + tail;
    assert s[0] == DigitChar(v / 10) && s[1] == DigitChar(v % 10);
  }

  lemma YearFirst(v: int, tail: string)
    requires 0 <= v < 10000
    ensures Alternatives(Year, Pad4(v) + tail) == [4]
  {
    var s := Pad4(v) + tail;
    assert s[..4] == Pad4(v);
  }

  /** When the first alternative is followed by a match of the other fields, the
      search returns that match. */
  lemma FirstAlternativeWins(fields: seq<Field>, s: string, rest: seq<string>)
    requires fields != []
    requires Alternatives(fields[0], s) != []
    requires Search(fields[1..], s[Alternatives(fields[0], s)[0]..]) == Some(rest)
    ensures Search(fields, s) == Some([s[..Alternatives(fields[0], s)[0]]] + rest)
  {
  }

  lemma PaddedStep(fields: seq<Field>, v: int, tail: string, rest: seq<string>)
    requires fields != [] && fields[0] != Year && 0 <= v < 100
    requires fields[0] == Month ==> 1 <= v <= 12
    requires fields[0] == Day ==> 1 <= v <= 31
    requires fields[0] == Hour ==> v < 24
    requires fields[0] == Minute || fields[0] == Second ==> v < 60
    requires Search(fields[1..], tail) == Some(rest)
    ensures Search(fields, Pad2(v) + tail) == Some([Pad2(v)] + rest)
  {
    var s := Pad2(v) + tail;
    PaddedFieldFirst(fields[0], v, tail);
    assert s[2..] == tail && s[..2] == Pad2(v);
    FirstAlternativeWins(fields, s, rest);
  }

  /** `[x] + xs` as a display, proved away from the search definitions where sequence
      extensionality is cheap. */
  lemma ConsOnto<T>(x: T, xs: seq<T>, ys: seq<T>)
    requires |ys| == |xs| + 1 && ys[0] == x && ys[1..] == xs
    ensures [x] + xs == ys
  {
  }

  /** The search over the fields after the year reads zero-padded values back
      field by field. */
  lemma PaddedTailSearch(t: DateTime)
    requires Valid(t)
    ensures var mo, d, h, mi, se := Pad2(t.month), Pad2(t.day), Pad2(t.hour), Pad2(t.minute), Pad2(t.second);
      Search(Format[1..], mo + (d + (h + (mi + se)))) == Some([mo, d, h, mi, se])
  {
    var mo, d, h, mi, se := Pad2(t.month), Pad2(t.day), Pad2(t.hour), Pad2(t.minute), Pad2(t.second);
    assert Format[1..] == [Month, Day, Hour, Minute, Second];
    PaddedTimeSearch(t);
    assert [Month, Day, Hour, Minute, Second][1..] == [Day, Hour, Minute, Second];
    PaddedStep([Day, Hour, Minute, Second], t.day, h + (mi + se), [h, mi, se]);
    ConsOnto(d, [h, mi, se], [d, h, mi, se]);
    PaddedStep([Month, Day, Hour, Minute, Second], t.month, d + (h + (mi + se)), [d, h, mi, se]);
    ConsOnto(mo, [d, h, mi, se], [mo, d, h, mi, se]);
  }

  lemma PaddedTimeSearch(t: DateTime)
    requires Valid(t)
    ensures var h, mi, se := Pad2(t.hour), Pad2(t.minute), Pad2(t.second);
      Search([Day, Hour, Minute, Second][1..], h + (mi + se)) == Some([h, mi, se])
  {
    var h, mi, se := Pad2(t.hour), Pad2(t.minute), Pad2(t.second);
    assert [Day, Hour, Minute, Second][1..] == [Hour, Minute, Second];
    assert Search([], []) == Some([]);
    assert [Second][1..] == [];
    PaddedStep([Second], t.second, [], []);
    assert se + [] == se && [se] + [] == [se];
    assert [Minute, Second][1..] == [Second];
    PaddedStep([Minute, Second], t.minute, se, [se]);
    ConsOnto(mi, [se], [mi, se]);
    assert [Hour, Minute, Second][1..] == [Minute, Second];
    PaddedStep([Hour, Minute, Second], t.hour, mi + se, [mi, se]);
    ConsOnto(h, [mi, se], [h, mi, se]);
  }

  /** The search over the whole format captures the six zero-padded fields. */
  lemma PaddedSearch(t: DateTime)
    requires Valid(t)
    ensures Search(Format, TimeVal(t))
         == Some([Pad4(t.year), Pad2(t.month), Pad2(t.day), Pad2(t.hour), Pad2(t.minute), Pad2(t.second)])
  {
    var y, mo, d, h, mi, se := Pad4(t.year), Pad2(t.month), Pad2(t.day), Pad2(t.hour), Pad2(t.minute), Pad2(t.second);
    var s := TimeVal(t);
    var tail := mo + (d + (h + (mi + se)));
    PaddedTailSearch(t);
    YearFirst(t.year, tail);
    assert s[4..] == tail && s[..4] == y;
    FirstAlternativeWins(Format, s, [mo, d, h, mi, se]);
    ConsOnto(y, [mo, d, h, mi, se], [y, mo, d, h, mi, se]);
  }

  lemma FlattenPadded(t: DateTime)
    requires Valid(t)
    ensures Flatten([Pad4(t.year), Pad2(t.month), Pad2(t.day), Pad2(t.hour), Pad2(t.minute), Pad2(t.second)]) == TimeVal(t)
  {
    var y, mo, d, h, mi, se := Pad4(t.year), Pad2(t.month), Pad2(t.day), Pad2(t.hour), Pad2(t.minute), Pad2(t.second);
    var caps := [y, mo, d, h, mi, se];
    assert [se][1..] == [] && Flatten([se]) == se;
    assert [mi, se][1..] == [se] && Flatten([mi, se]) == mi + se;
    assert [h, mi, se][1..] == [mi, se] && Flatten([h, mi, se]) == h + (mi + se);
    assert [d, h, mi, se][1..] == [h, mi, se] && Flatten([d, h, mi, se]) == d + (h + (mi + se));
    assert [mo, d, h, mi, se][1..] == [d, h, mi, se] && Flatten([mo, d, h, mi, se]) == mo + (d + (h + (mi + se)));
    assert caps[1..] == [mo, d, h, mi, se];
  }

  /** Reading the time-val of a valid time gives that time back. */
  lemma TimeValRoundTrip(t: DateTime)
    requires Valid(t)
    ensures Strptime(TimeVal(t)) == Some(t)
  {
    var caps := [Pad4(t.year), Pad2(t.month), Pad2(t.day), Pad2(t.hour), Pad2(t.minute), Pad2(t.second)];
    PaddedSearch(t);
    FlattenPadded(t);
    assert DateTime(Value(caps[0]), Value(caps[1]), Value(caps[2]), Value(caps[3]), Value(caps[4]), Value(caps[5])) == t;
  }

  /** The round trip through the whole reply, as `get_modified_time` reads it. */
  lemma MdtmReplyRoundTrip(t: DateTime)
    requires Valid(t)
    ensures ParseMdtmReply(MdtmReply(t)) == Some(t)
  {
    assert DropCode(MdtmReply(t)) == TimeVal(t);
    TimeValRoundTrip(t);
  }

  // ---------------------------------------------------------------------------
  // The converse: a fourteen-digit time-val is read exactly

  lemma {:induction false} WidthsAtMost(fields: seq<Field>, caps: seq<string>)
    requires |caps| == |fields|
    requires forall i :: 0 <= i < |caps| ==> |caps[i]| <= MaxWidth(fields[i])
    ensures |Flatten(caps)| <= SumMax(fields)
    ensures |Flatten(caps)| == SumMax(fields) ==> forall i :: 0 <= i < |caps| ==> |caps[i]| == MaxWidth(fields[i])
  {
    if caps != [] {
      assert forall i :: 1 <= i < |caps| ==> caps[1..][i - 1] == caps[i] && fields[1..][i - 1] == fields[i];
      WidthsAtMost(fields[1..], caps[1..]);
    }
  }

  /** The two digits at `i` are the zero-padded text of their value. */
  lemma PadValue2(s: string, i: nat)
    requires i + 2 <= |s| && '0' <= s[i] <= '9' && '0' <= s[i + 1] <= '9'
    ensures Value(s[i..i + 2]) < 100 && Pad2(Value(s[i..i + 2])) == s[i..i + 2]
  {
    var c := s[i..i + 2];
    assert c[0] == s[i] && c[1] == s[i + 1];
    ValueDigits(c[..1]);
    var a, b := DigitValue(c[0]), DigitValue(c[1]);
    assert Value(c) == a * 10 + b;
    assert (a * 10 + b) / 10 == a && (a * 10 + b) % 10 == b;
    assert DigitChar(a) == c[0] && DigitChar(b) == c[1];
  }

  /** The four digits at the start are the zero-padded text of their value. */
  lemma PadValue4(s: string)
    requires 4 <= |s| && forall i :: 0 <= i < 4 ==> '0' <= s[i] <= '9'
    ensures Value(s[..4]) < 10000 && Pad4(Value(s[..4])) == s[..4]
  {
    var c := s[..4];
    var hi, lo := c[..2], c[2..];
    assert c == hi + lo;
    ValueAppend2(hi, lo);
    PadValue2(c, 0);
    PadValue2(c, 2);
    assert hi == c[0..2] && lo == c[2..4];
    var n := Value(c);
    assert n == Value(hi) * 100 + Value(lo);
    assert n / 100 == Value(hi) && n % 100 == Value(lo);
  }

  lemma Split14(s: string)
    requires |s| == 14
    ensures s == s[..4] + (s[4..6] + (s[6..8] + (s[8..10] + (s[10..12] + s[12..14]))))
  {
  }

  /** Six pieces of widths 4, 2, 2, 2, 2, 2 are the matching slices of their
      concatenation. */
  lemma FlattenSixPieces<T>(c: seq<seq<T>>)
    requires |c| == 6 && |c[0]| == 4 && |c[1]| == 2 && |c[2]| == 2 && |c[3]| == 2 && |c[4]| == 2 && |c[5]| == 2
    ensures var f := Flatten(c); |f| == 14 && c == [f[..4], f[4..6], f[6..8], f[8..10], f[10..12], f[12..14]]
  {
    assert Flatten(c) == c[0] + (c[1] + (c[2] + (c[3] + (c[4] + c[5])))) by {
      assert c[5..][1..] == [] && c[5..][0] == c[5];
      assert Flatten(c[5..]) == c[5];
      assert c[4..][1..] == c[5..] && c[4..][0] == c[4];
      assert Flatten(c[4..]) == c[4] + c[5];
      assert c[3..][1..] == c[4..] && c[3..][0] == c[3];
      assert Flatten(c[3..]) == c[3] + (c[4] + c[5]);
      assert c[2..][1..] == c[3..] && c[2..][0] == c[2];
      assert Flatten(c[2..]) == c[2] + (c[3] + (c[4] + c[5]));
      assert c[1..][1..] == c[2..] && c[1..][0] == c[1];
      assert Flatten(c[1..]) == c[1] + (c[2] + (c[3] + (c[4] + c[5])));
    }
    var f := Flatten(c);
    assert f[..4] == c[0] && f[4..6] == c[1] && f[6..8] == c[2];
    assert f[8..10] == c[3] && f[10..12] == c[4] && f[12..14] == c[5];
  }

  /** The captures of a fourteen-character match: every field at its full width. */
  lemma FullWidthCaptures(s: string, caps: seq<string>)
    requires Captures(Format, s, caps) && |Flatten(caps)| == |s| == 14
    ensures caps == [s[..4], s[4..6], s[6..8], s[8..10], s[10..12], s[12..14]]
  {
    assert SumMax(Format) == 14 by {
      assert Format[1..][1..][1..][1..][1..][1..] == [];
    }
    WidthsAtMost(Format, caps);
    assert |caps[0]| == 4 && |caps[1]| == 2 && |caps[2]| == 2 && |caps[3]| == 2 && |caps[4]| == 2 && |caps[5]| == 2;
    FlattenSixPieces(caps);
    assert s[..14] == s;
  }

  /** On fourteen characters, `Strptime` reads every field from its full-width slice. */
  lemma FourteenCharsFields(s: string)
    requires |s| == 14 && Strptime(s).Some?
    ensures Strptime(s).value
         == DateTime(Value(s[..4]), Value(s[4..6]), Value(s[6..8]), Value(s[8..10]), Value(s[10..12]), Value(s[12..14]))
  {
    FullWidthCaptures(s, Search(Format, s).value);
  }

  /** A fourteen-digit time-val that parses is the time-val of what it parses to:
      `TimeVal` is the inverse of `Strptime` on such replies. */
  lemma FourteenDigitsReadExactly(s: string)
    requires |s| == 14 && forall i :: 0 <= i < 14 ==> '0' <= s[i] <= '9'
    requires Strptime(s).Some?
    ensures TimeVal(Strptime(s).value) == s
  {
    FourteenCharsFields(s);
    PadValue4(s);
    PadValue2(s, 4);
    PadValue2(s, 6);
    PadValue2(s, 8);
    PadValue2(s, 10);
    PadValue2(s, 12);
    Split14(s);
  }

  /** When the first of two alternatives leads nowhere and the second does, the
      search returns the match through the second. */
  lemma SecondAlternativeWins(fields: seq<Field>, s: string, a0: nat, a1: nat, rest: seq<string>)
    requires fields != [] && Alternatives(fields[0], s) == [a0, a1] && a0 <= |s| && a1 <= |s|
    requires Search(fields[1..], s[a0..]) == None
    requires Search(fields[1..], s[a1..]) == Some(rest)
    ensures Search(fields, s) == Some([s[..a1]] + rest)
  {
    assert a0 in [a0, a1] && a1 in [a0, a1];
    assert [a0, a1][1..] == [a1];
    assert TryAlternatives(fields, s, [a0, a1]) == TryAlternatives(fields, s, [a1]);
  }

  /** When the first of two alternatives leads to a match, the search returns it. */
  lemma FirstOfTwoWins(fields: seq<Field>, s: string, a0: nat, a1: nat, rest: seq<string>)
    requires fields != [] && Alternatives(fields[0], s) == [a0, a1] && a0 <= |s| && a1 <= |s|
    requires Search(fields[1..], s[a0..]) == Some(rest)
    ensures Search(fields, s) == Some([s[..a0]] + rest)
  {
    assert a0 in [a0, a1] && a1 in [a0, a1];
  }

  /** When the only alternative leads to a match, the search returns it. */
  lemma OnlyAlternativeWins(fields: seq<Field>, s: string, a0: nat, rest: seq<string>)
    requires fields != [] && Alternatives(fields[0], s) == [a0] && a0 <= |s|
    requires Search(fields[1..], s[a0..]) == Some(rest)
    ensures Search(fields, s) == Some([s[..a0]] + rest)
  {
    assert a0 in [a0];
  }

  /** When neither of two alternatives leads to a match, there is none. */
  lemma TwoAlternativesFail(fields: seq<Field>, s: string, a0: nat, a1: nat)
    requires fields != [] && Alternatives(fields[0], s) == [a0, a1] && a0 <= |s| && a1 <= |s|
    requires Search(fields[1..], s[a0..]) == None
    requires Search(fields[1..], s[a1..]) == None
    ensures Search(fields, s) == None
  {
    assert a0 in [a0, a1] && a1 in [a0, a1];
    assert [a0, a1][1..] == [a1] && [a1][1..] == [];
    assert TryAlternatives(fields, s, [a0, a1]) == TryAlternatives(fields, s, [a1]);
    assert TryAlternatives(fields, s, [a1]) == TryAlternatives(fields, s, []);
  }

  /** When the only alternative leads nowhere, there is no match. */
  lemma OneAlternativeFails(fields: seq<Field>, s: string, a0: nat)
    requires fields != [] && Alternatives(fields[0], s) == [a0] && a0 <= |s|
    requires Search(fields[1..], s[a0..]) == None
    ensures Search(fields, s) == None
  {
    assert a0 in [a0];
    assert [a0][1..] == [];
    assert TryAlternatives(fields, s, [a0]) == TryAlternatives(fields, s, []);
  }

  // The search on "202411111", from the last field back.

  /** Two ones in a row give every field after the year both widths, two first. */
  lemma OnesAlternatives(f: Field, s: string)
    requires f != Year && |s| >= 2 && s[0] == '1' && s[1] == '1'
    ensures Alternatives(f, s) == [2, 1]
  {
  }

  /** A lone one gives every field after the year the one-digit width only. */
  lemma OneAlternative(f: Field)
    requires f != Year
    ensures Alternatives(f, "1") == [1]
  {
  }

  lemma OnesSecond()
    ensures Search([Second], "") == None
    ensures Search([Second], "1") == Some(["1"])
  {
    assert [Second][1..] == [];
    OneAlternative(Second);
    assert "1"[1..] == [] && "1"[..1] == "1" && ["1"] + [] == ["1"];
  }

  lemma OnesMinute()
    ensures Search([Minute, Second], "") == None
    ensures Search([Minute, Second], "1") == None
    ensures Search([Minute, Second], "11") == Some(["1", "1"])
  {
    OnesSecond();
    var f := [Minute, Second];
    assert f[1..] == [Second];
    OneAlternative(Minute);
    assert "1"[1..] == [];
    OneAlternativeFails(f, "1", 1);
    OnesAlternatives(Minute, "11");
    assert "11"[2..] == [] && "11"[1..] == "1" && "11"[..1] == "1";
    SecondAlternativeWins(f, "11", 2, 1, ["1"]);
    ConsOnto("1", ["1"], ["1", "1"]);
  }

  lemma OnesHour()
    ensures Search([Hour, Minute, Second], "1") == None
    ensures Search([Hour, Minute, Second], "11") == None
    ensures Search([Hour, Minute, Second], "111") == Some(["1", "1", "1"])
  {
    OnesMinute();
    var f := [Hour, Minute, Second];
    assert f[1..] == [Minute, Second];
    OneAlternative(Hour);
    assert "1"[1..] == [];
    OneAlternativeFails(f, "1", 1);
    OnesAlternatives(Hour, "11");
    assert "11"[2..] == [] && "11"[1..] == "1";
    TwoAlternativesFail(f, "11", 2, 1);
    OnesAlternatives(Hour, "111");
    assert "111"[2..] == "1" && "111"[1..] == "11" && "111"[..1] == "1";
    SecondAlternativeWins(f, "111", 2, 1, ["1", "1"]);
    ConsOnto("1", ["1", "1"], ["1", "1", "1"]);
  }

  lemma OnesDay()
    ensures Search([Day, Hour, Minute, Second], "111") == None
    ensures Search([Day, Hour, Minute, Second], "1111") == Some(["1", "1", "1", "1"])
  {
    OnesHour();
    var f := [Day, Hour, Minute, Second];
    assert f[1..] == [Hour, Minute, Second];
    OnesAlternatives(Day, "111");
    assert "111"[2..] == "1" && "111"[1..] == "11";
    TwoAlternativesFail(f, "111", 2, 1);
    OnesAlternatives(Day, "1111");
    assert "1111"[2..] == "11" && "1111"[1..] == "111" && "1111"[..1] == "1";
    SecondAlternativeWins(f, "1111", 2, 1, ["1", "1", "1"]);
    ConsOnto("1", ["1", "1", "1"], ["1", "1", "1", "1"]);
  }

  lemma OnesMonth()
    ensures Search(Format[1..], "11111") == Some(["1", "1", "1", "1", "1"])
  {
    OnesDay();
    var f := Format[1..];
    assert f[1..] == [Day, Hour, Minute, Second];
    OnesAlternatives(Month, "11111");
    assert "11111"[2..] == "111" && "11111"[1..] == "1111" && "11111"[..1] == "1";
    SecondAlternativeWins(f, "11111", 2, 1, ["1", "1", "1", "1"]);
    ConsOnto("1", ["1", "1", "1", "1"], ["1", "1", "1", "1", "1"]);
  }

  lemma ValueTwoDigits(c: string)
    requires |c| == 2
    ensures Value(c) == DigitValue(c[0]) * 10 + DigitValue(c[1])
  {
    ValueDigits(c[..1]);
    assert c[..|c| - 1] == c[..1] && c[..1][0] == c[0];
  }

  /** Once the search has captured the fields and used up the text, `strptime`
      returns the date the captures spell, when it is a real one. */
  lemma StrptimeReads(s: string, caps: seq<string>)
    requires Search(Format, s) == Some(caps) && |Flatten(caps)| == |s|
    requires |caps| == 6
    requires Valid(DateTime(Value(caps[0]), Value(caps[1]), Value(caps[2]), Value(caps[3]), Value(caps[4]), Value(caps[5])))
    ensures Strptime(s) == Some(DateTime(Value(caps[0]), Value(caps[1]), Value(caps[2]), Value(caps[3]), Value(caps[4]), Value(caps[5])))
  {
  }

  /** Text the search leaves unread makes `strptime` fail. */
  lemma StrptimeLeftOver(s: string, caps: seq<string>)
    requires Search(Format, s) == Some(caps) && |Flatten(caps)| != |s|
    ensures Strptime(s) == None
  {
  }

  lemma ShortStampSearch()
    ensures Search(Format, "202411111") == Some(["2024", "1", "1", "1", "1", "1"])
  {
    OnesMonth();
    assert Alternatives(Year, "202411111") == [4];
    assert "202411111"[4..] == "11111" && "202411111"[..4] == "2024";
    FirstAlternativeWins(Format, "202411111", ["1", "1", "1", "1", "1"]);
    ConsOnto("2024", ["1", "1", "1", "1", "1"], ["2024", "1", "1", "1", "1", "1"]);
  }

  lemma ShortStampFlatten()
    ensures Flatten(["2024", "1", "1", "1", "1", "1"]) == "202411111"
  {
    assert ["2024", "1", "1", "1", "1", "1"][1..] == ["1", "1", "1", "1", "1"];
    assert Flatten(["1", "1", "1", "1", "1"]) == "11111";
  }

  lemma Value2024()
    ensures Value("2024") == 2024
  {
    ValueTwoDigits("20");
    ValueTwoDigits("24");
    ValueAppend2("20", "24");
    assert "20" + "24" == "2024";
  }

  /** Fields after the year may be one digit wide: "202411111" is read as
      2024-01-01 01:01:01, after the two-digit alternatives for month, day, hour and
      minute have each been tried and abandoned. */
  lemma ShortStampAccepted()
    ensures Strptime("202411111") == Some(DateTime(2024, 1, 1, 1, 1, 1))
  {
    var caps := ["2024", "1", "1", "1", "1", "1"];
    ShortStampSearch();
    ShortStampFlatten();
    ValueDigits("1");
    Value2024();
    StrptimeReads("202411111", caps);
  }

  // The search on "20241301000000", from the last field back: every field takes its
  // first alternative, and the month takes one digit.

  /** Two digits that make a valid two-digit field: the two-digit alternative comes
      first and the one-digit one second. */
  lemma TwoThenOne(f: Field, s: string)
    requires |s| >= 2
    requires f == Second || f == Minute || f == Hour || f == Day
    requires f == Day ==> s[0] == '3' && s[1] == '0'
    requires f == Hour ==> s[0] == '1' && s[1] == '0'
    requires f == Minute || f == Second ==> s[0] == '0' && s[1] == '0'
    ensures Alternatives(f, s) == [2, 1]
  {
  }

  lemma MonthThirteenSecond()
    ensures Search([Second], "000") == Some(["00"])
  {
    TwoThenOne(Second, "000");
    assert [Second][1..] == [] && "000"[2..] == "0" && "000"[..2] == "00";
    FirstOfTwoWins([Second], "000", 2, 1, []);
    assert ["00"] + [] == ["00"];
  }

  lemma MonthThirteenMinute()
    ensures Search([Minute, Second], "00000") == Some(["00", "00"])
  {
    MonthThirteenSecond();
    TwoThenOne(Minute, "00000");
    assert [Minute, Second][1..] == [Second] && "00000"[2..] == "000" && "00000"[..2] == "00";
    FirstOfTwoWins([Minute, Second], "00000", 2, 1, ["00"]);
    ConsOnto("00", ["00"], ["00", "00"]);
  }

  lemma MonthThirteenHour()
    ensures Search([Hour, Minute, Second], "1000000") == Some(["10", "00", "00"])
  {
    MonthThirteenMinute();
    TwoThenOne(Hour, "1000000");
    assert [Hour, Minute, Second][1..] == [Minute, Second] && "1000000"[2..] == "00000" && "1000000"[..2] == "10";
    FirstOfTwoWins([Hour, Minute, Second], "1000000", 2, 1, ["00", "00"]);
    ConsOnto("10", ["00", "00"], ["10", "00", "00"]);
  }

  lemma MonthThirteenDay()
    ensures Search([Day, Hour, Minute, Second], "301000000") == Some(["30", "10", "00", "00"])
  {
    MonthThirteenHour();
    TwoThenOne(Day, "301000000");
    assert [Day, Hour, Minute, Second][1..] == [Hour, Minute, Second];
    assert "301000000"[2..] == "1000000" && "301000000"[..2] == "30";
    FirstOfTwoWins([Day, Hour, Minute, Second], "301000000", 2, 1, ["10", "00", "00"]);
    ConsOnto("30", ["10", "00", "00"], ["30", "10", "00", "00"]);
  }

  /** "13" cannot be a two-digit month, so only the one-digit alternative is left. */
  lemma ThirteenOneDigitMonth(s: string)
    requires |s| >= 2 && s[0] == '1' && s[1] == '3'
    ensures Alternatives(Month, s) == [1]
  {
  }

  lemma MonthThirteenMonth()
    ensures Search(Format[1..], "1301000000") == Some(["1", "30", "10", "00", "00"])
  {
    MonthThirteenDay();
    ThirteenOneDigitMonth("1301000000");
    var f := Format[1..];
    assert f[1..] == [Day, Hour, Minute, Second];
    assert "1301000000"[1..] == "301000000" && "1301000000"[..1] == "1";
    OnlyAlternativeWins(f, "1301000000", 1, ["30", "10", "00", "00"]);
    ConsOnto("1", ["30", "10", "00", "00"], ["1", "30", "10", "00", "00"]);
  }

  lemma MonthThirteenSearch()
    ensures Search(Format, "20241301000000") == Some(["2024", "1", "30", "10", "00", "00"])
  {
    MonthThirteenMonth();
    assert Alternatives(Year, "20241301000000") == [4];
    assert "20241301000000"[4..] == "1301000000" && "20241301000000"[..4] == "2024";
    FirstAlternativeWins(Format, "20241301000000", ["1", "30", "10", "00", "00"]);
    ConsOnto("2024", ["1", "30", "10", "00", "00"], ["2024", "1", "30", "10", "00", "00"]);
  }

  lemma MonthThirteenFlatten()
    ensures |Flatten(["2024", "1", "30", "10", "00", "00"])| == 13
  {
    assert ["2024", "1", "30", "10", "00", "00"][1..] == ["1", "30", "10", "00", "00"];
    assert Flatten(["1", "30", "10", "00", "00"]) == "130100000";
  }

  /** A month of 13 is not read as an error in the month: `1` is taken as the month,
      the day becomes 30, and one digit is left over, so "20241301000000" is
      rejected as unconverted data. */
  lemma MonthThirteenRejected()
    ensures Strptime("20241301000000") == None
  {
    MonthThirteenSearch();
    MonthThirteenFlatten();
    StrptimeLeftOver("20241301000000", ["2024", "1", "30", "10", "00", "00"]);
  }
}

=== FILE: rust_main.dfy ===
/** The Rust binary (`src/main.rs`): listing filter, modification-time filter,
    upload loop and the command-line time window. FTP round trips are oracles. */
module RustMain {
  import opened Wrappers
  import opened Seqs
  import opened DateTimes
  import opened Ftp
  import Paths

  /** `ftp_stream.mdtm(file)`: the server-reported modification time, or `None`
      when the query (or the parsing of its reply) fails. */
  type MdtmOracle = string -> Option<DateTime>

  /** The entries the compiled `--regex-pattern` finds a match in. */
  function MatchesPattern(matches: Matcher, pattern: string): string -> bool
  {
    (entry: string) => matches(pattern, entry)
  }

  /** `FtpFilter::filter_files` after the NLST round trip: the listing entries in
      which the pattern matches, in listing order. */
  function FilterFiles(listing: seq<string>, pattern: string, matches: Matcher): (r: seq<string>)
    ensures IsSubseq(r, listing)
    ensures forall f :: f in r <==> f in listing && matches(pattern, f)
    ensures forall f :: multiset(r)[f] == if matches(pattern, f) then multiset(listing)[f] else 0
  {
    FilterIsSubseq(MatchesPattern(matches, pattern), listing);
    Filter(MatchesPattern(matches, pattern), listing)
  }

  /** The time test of `filter_by_time`: a failed MDTM keeps nothing. */
  function WithinTime(mdtm: MdtmOracle, start: DateTime, end: DateTime): string -> bool
  {
    (file: string) =>
      match mdtm(file)
      case Some(t) => Le(start, t) && Le(t, end)
      case None => false
  }

  /** `FtpFilter::filter_by_time`: the files whose modification time lies in the
      inclusive window `[start, end]`, in input order. */
  function FilterByTime(files: seq<string>, mdtm: MdtmOracle, start: DateTime, end: DateTime): (r: seq<string>)
    ensures IsSubseq(r, files)
    ensures forall f :: f in r <==> f in files && mdtm(f).Some? && Contains(Window(start, end), mdtm(f).value)
    ensures forall f :: mdtm(f).None? ==> f !in r
    ensures forall f :: multiset(r)[f] == if WithinTime(mdtm, start, end)(f) then multiset(files)[f] else 0
    ensures !Le(start, end) ==> r == []
  {
    FilterIsSubseq(WithinTime(mdtm, start, end), files);
    var r := Filter(WithinTime(mdtm, start, end), files);
    if r != [] then
      LeTotalOrder(start, mdtm(r[0]).value, end);
      r
    else r
  }

  /** With the oracle and the window fixed, a second pass removes nothing. */
  lemma {:induction false} FilterByTimeIdempotent(files: seq<string>, mdtm: MdtmOracle, start: DateTime, end: DateTime)
    ensures FilterByTime(FilterByTime(files, mdtm, start, end), mdtm, start, end)
         == FilterByTime(files, mdtm, start, end)
  {
    FilterIdempotent(WithinTime(mdtm, start, end), files);
  }

  /** Both bounds are inclusive: a file stamped exactly at either bound is kept. */
  lemma BoundsInclusive(files: seq<string>, mdtm: MdtmOracle, w: Window, f: string)
    requires f in files && Le(w.start, w.end)
    requires mdtm(f) == Some(w.start) || mdtm(f) == Some(w.end)
    ensures f in FilterByTime(files, mdtm, w.start, w.end)
  {
    WindowShape(w, w.start);
  }

  /** The test both filters apply in `main`, as one predicate. */
  function Selected(pattern: string, matches: Matcher, mdtm: MdtmOracle, w: Window): string -> bool
  {
    (f: string) => matches(pattern, f) && WithinTime(mdtm, w.start, w.end)(f)
  }

  /** Lines 138-140 of `main`: the regex filter followed by the time filter. The
      candidates are exactly the listing entries that match the pattern and whose
      modification time is known and inside the window, in listing order. */
  function Select(listing: seq<string>, pattern: string, matches: Matcher, mdtm: MdtmOracle, w: Window): (r: seq<string>)
    ensures r == Filter(Selected(pattern, matches, mdtm, w), listing)
    ensures IsSubseq(r, listing)
    ensures forall f :: f in r <==> f in listing && matches(pattern, f) && mdtm(f).Some? && Contains(w, mdtm(f).value)
  {
    FilterFuse(MatchesPattern(matches, pattern), WithinTime(mdtm, w.start, w.end), Selected(pattern, matches, mdtm, w), listing);
    FilterIsSubseq(Selected(pattern, matches, mdtm, w), listing);
    FilterByTime(FilterFiles(listing, pattern, matches), mdtm, w.start, w.end)
  }

  // ---------------------------------------------------------------------------
  // The upload loop

  /** One FTP round trip of the upload loop. */
  datatype Op =
    | Retr(path: string)                           // source `retr_as_buffer(file)`
    | Cwd(from: string, arg: string)               // target `cwd(target_path)`, sent while in directory `from`
    | Put(dir: string, name: string, data: Bytes)  // target `put_file(base_name, cursor)` into directory `dir`

  /** What the servers answer. The source gives a file's contents (`None`: RETR
      fails). The target session starts in directory `home`; `cwd(from, arg)` is
      the directory a CWD with argument `arg` enters when sent from directory
      `from` (`None`: it is refused), so a relative argument is resolved against
      wherever the session is; `putOk(dir, name, data)` tells whether a STOR of
      `data` under `name` into directory `dir` succeeds. */
  datatype Servers = Servers(
    retr: string -> Option<Bytes>,
    home: string,
    cwd: (string, string) -> Option<string>,
    putOk: (string, string, Bytes) -> bool)

  /** The round trips issued, and whether the loop ran to its end. A failed round
      trip is the last one issued: its `unwrap` panics the process. */
  datatype Upload = Upload(ops: seq<Op>, completed: bool)

  predicate Fails(op: Op, srv: Servers) {
    match op
    case Retr(p) => srv.retr(p).None?
    case Cwd(from, arg) => srv.cwd(from, arg).None?
    case Put(dir, n, data) => !srv.putOk(dir, n, data)
  }

  /** The directory the session is in after a CWD to `targetPath` sent from `dir`;
      a refused CWD leaves it where it was. */
  function Enter(srv: Servers, targetPath: string, dir: string): string {
    srv.cwd(dir, targetPath).GetOr(dir)
  }

  /** The directory the session is in after `n` CWDs to `targetPath` from `dir`. */
  function After(srv: Servers, targetPath: string, dir: string, n: nat): string
    decreases n
  {
    if n == 0 then dir else After(srv, targetPath, Enter(srv, targetPath, dir), n - 1)
  }

  /** The round trips for one file, sent while the session is in `dir`, when all of
      them succeed. */
  function RoundTrips(file: string, targetPath: string, srv: Servers, dir: string): seq<Op>
  {
    [Retr(file), Cwd(dir, targetPath), Put(Enter(srv, targetPath, dir), Paths.BaseName(file), srv.retr(file).GetOr([]))]
  }

  /** The round trips of a fully successful upload, file after file, each pass
      starting in the directory the previous one entered. */
  function Planned(files: seq<string>, targetPath: string, srv: Servers, dir: string): seq<Op>
  {
    if files == [] then []
    else RoundTrips(files[0], targetPath, srv, dir) + Planned(files[1..], targetPath, srv, Enter(srv, targetPath, dir))
  }

  lemma {:induction false} PlannedLength(files: seq<string>, targetPath: string, srv: Servers, dir: string)
    ensures |Planned(files, targetPath, srv, dir)| == 3 * |files|
  {
    if files != [] {
      PlannedLength(files[1..], targetPath, srv, Enter(srv, targetPath, dir));
    }
  }

  /** The plan holds exactly one RETR, one CWD and one STOR per file, in input
      order, each file stored under its base name with its own contents; the i-th
      CWD is sent from the directory the i CWDs before it entered. */
  lemma {:induction false} PlannedShape(files: seq<string>, targetPath: string, srv: Servers, dir: string, i: nat)
    requires i < |files|
    ensures |Planned(files, targetPath, srv, dir)| == 3 * |files|
    ensures Planned(files, targetPath, srv, dir)[3 * i .. 3 * i + 3]
         == RoundTrips(files[i], targetPath, srv, After(srv, targetPath, dir, i))
  {
    PlannedLength(files, targetPath, srv, dir);
    var next := Enter(srv, targetPath, dir);
    var p := Planned(files, targetPath, srv, dir);
    var rest := Planned(files[1..], targetPath, srv, next);
    assert p == RoundTrips(files[0], targetPath, srv, dir) + rest;
    if i > 0 {
      PlannedShape(files[1..], targetPath, srv, next, i - 1);
      assert files[1..][i - 1] == files[i];
      assert p[3 * i .. 3 * i + 3] == rest[3 * (i - 1) .. 3 * (i - 1) + 3];
    }
  }

  /** Whether every round trip for `file`, sent while in `dir`, succeeds. */
  predicate FileSucceeds(file: string, targetPath: string, srv: Servers, dir: string) {
    && srv.retr(file).Some?
    && srv.cwd(dir, targetPath).Some?
    && srv.putOk(srv.cwd(dir, targetPath).value, Paths.BaseName(file), srv.retr(file).value)
  }

  /** Whether every round trip for every file succeeds. */
  predicate AllSucceed(files: seq<string>, targetPath: string, srv: Servers, dir: string) {
    forall i :: 0 <= i < |files| ==> FileSucceeds(files[i], targetPath, srv, After(srv, targetPath, dir, i))
  }

  lemma AllSucceedCons(files: seq<string>, targetPath: string, srv: Servers, dir: string)
    requires files != []
    ensures AllSucceed(files, targetPath, srv, dir)
        <==> FileSucceeds(files[0], targetPath, srv, dir) && AllSucceed(files[1..], targetPath, srv, Enter(srv, targetPath, dir))
  {
    var next := Enter(srv, targetPath, dir);
    forall i | 1 <= i < |files|
      ensures files[i] == files[1..][i - 1]
      ensures After(srv, targetPath, dir, i) == After(srv, targetPath, next, i - 1)
    {
    }
  }

  /** `FtpClient::upload_to_target`, entered with the target session in `dir`: for
      each file, RETR it from the source, CWD the target to `target_path`, and STOR
      the contents under `file.split('/').last()`, which is `Paths.BaseName(file)`
      by `Paths.LastPieceIsBaseName`; the first failure panics. The CWD is sent on
      every pass, each time from the directory the previous pass entered. The log is
      the plan up to and including the first failing round trip. */
  function UploadToTarget(files: seq<string>, targetPath: string, srv: Servers, dir: string): (u: Upload)
    ensures u.ops <= Planned(files, targetPath, srv, dir)
    ensures u.completed <==> AllSucceed(files, targetPath, srv, dir)
    ensures u.completed ==> u.ops == Planned(files, targetPath, srv, dir)
  {
    if files == [] then Upload([], true)
    else
      var f := files[0];
      var name := Paths.BaseName(f);
      AllSucceedCons(files, targetPath, srv, dir);
      assert Planned(files, targetPath, srv, dir)
          == RoundTrips(f, targetPath, srv, dir) + Planned(files[1..], targetPath, srv, Enter(srv, targetPath, dir));
      match srv.retr(f)
      case None =>
        Upload([Retr(f)], false)
      case Some(data) =>
        match srv.cwd(dir, targetPath)
        case None =>
          Upload([Retr(f), Cwd(dir, targetPath)], false)
        case Some(next) =>
          assert RoundTrips(f, targetPath, srv, dir) == [Retr(f), Cwd(dir, targetPath), Put(next, name, data)];
          if !srv.putOk(next, name, data) then
            Upload([Retr(f), Cwd(dir, targetPath), Put(next, name, data)], false)
          else
            var rest := UploadToTarget(files[1..], targetPath, srv, next);
            Upload([Retr(f), Cwd(dir, targetPath), Put(next, name, data)] + rest.ops, rest.completed)
  }

  /** The property of an upload log that nothing follows a failed round trip, and
      that the last round trip failed exactly when the loop stopped early. */
  predicate StopsAtFirstFailure(u: Upload, srv: Servers) {
    && (forall i :: 0 <= i < |u.ops| - 1 ==> !Fails(u.ops[i], srv))
    && (u.completed <==> u.ops == [] || !Fails(u.ops[|u.ops| - 1], srv))
  }

  lemma FirstFileFails(files: seq<string>, targetPath: string, srv: Servers, dir: string)
    requires files != [] && !FileSucceeds(files[0], targetPath, srv, dir)
    ensures StopsAtFirstFailure(UploadToTarget(files, targetPath, srv, dir), srv)
  {
    var f := files[0];
    var u := UploadToTarget(files, targetPath, srv, dir);
    if srv.retr(f).None? {
      assert u == Upload([Retr(f)], false);
    } else if srv.cwd(dir, targetPath).None? {
      assert u == Upload([Retr(f), Cwd(dir, targetPath)], false);
    } else {
      assert u == Upload([Retr(f), Cwd(dir, targetPath), Put(srv.cwd(dir, targetPath).value, Paths.BaseName(f), srv.retr(f).value)], false);
    }
  }

  /** Round trips that all succeed, issued before a log with the property, keep it. */
  lemma PrependSucceeding(head: seq<Op>, u: Upload, srv: Servers)
    requires head != [] && forall op :: op in head ==> !Fails(op, srv)
    requires StopsAtFirstFailure(u, srv)
    ensures StopsAtFirstFailure(Upload(head + u.ops, u.completed), srv)
  {
    var ops := head + u.ops;
    forall i | 0 <= i < |ops| - 1 ensures !Fails(ops[i], srv) {
      if i >= |head| { assert ops[i] == u.ops[i - |head|]; } else { assert ops[i] == head[i]; }
    }
    if u.ops != [] {
      assert ops[|ops| - 1] == u.ops[|u.ops| - 1];
    } else {
      assert ops == head;
      assert ops[|ops| - 1] in head;
    }
  }

  lemma SucceedingFileKeepsStop(files: seq<string>, targetPath: string, srv: Servers, dir: string)
    requires files != [] && FileSucceeds(files[0], targetPath, srv, dir)
    requires StopsAtFirstFailure(UploadToTarget(files[1..], targetPath, srv, srv.cwd(dir, targetPath).value), srv)
    ensures StopsAtFirstFailure(UploadToTarget(files, targetPath, srv, dir), srv)
  {
    var f := files[0];
    var next := srv.cwd(dir, targetPath).value;
    var head := [Retr(f), Cwd(dir, targetPath), Put(next, Paths.BaseName(f), srv.retr(f).value)];
    var rest := UploadToTarget(files[1..], targetPath, srv, next);
    assert UploadToTarget(files, targetPath, srv, dir) == Upload(head + rest.ops, rest.completed);
    assert !Fails(head[0], srv) && !Fails(head[1], srv) && !Fails(head[2], srv);
    PrependSucceeding(head, rest, srv);
  }

  /** Every round trip issued before the last one succeeded, and the last one
      failed exactly when the loop did not complete: nothing is attempted after the
      first failure. */
  lemma {:induction false} UploadStopsAtFirstFailure(files: seq<string>, targetPath: string, srv: Servers, dir: string)
    ensures StopsAtFirstFailure(UploadToTarget(files, targetPath, srv, dir), srv)
  {
    if files == [] {
    } else if !FileSucceeds(files[0], targetPath, srv, dir) {
      FirstFileFails(files, targetPath, srv, dir);
    } else {
      UploadStopsAtFirstFailure(files[1..], targetPath, srv, srv.cwd(dir, targetPath).value);
      SucceedingFileKeepsStop(files, targetPath, srv, dir);
    }
  }

  // ---------------------------------------------------------------------------
  // The upload loop as evidently intended: one CWD before the loop

  /** The round trips for one file once the session is in `dir`. */
  function StoreTrips(file: string, dir: string, retr: string -> Option<Bytes>): seq<Op>
  {
    [Retr(file), Put(dir, Paths.BaseName(file), retr(file).GetOr([]))]
  }

  /** The round trips of the loop after the one CWD, when all of them succeed. */
  function PlannedStores(files: seq<string>, dir: string, retr: string -> Option<Bytes>): seq<Op>
  {
    if files == [] then [] else StoreTrips(files[0], dir, retr) + PlannedStores(files[1..], dir, retr)
  }

  predicate StoreSucceeds(file: string, dir: string, srv: Servers) {
    srv.retr(file).Some? && srv.putOk(dir, Paths.BaseName(file), srv.retr(file).value)
  }

  predicate AllStore(files: seq<string>, dir: string, srv: Servers) {
    forall i :: 0 <= i < |files| ==> StoreSucceeds(files[i], dir, srv)
  }

  /** Every STOR of a log goes into `dir`. */
  predicate PutsInto(ops: seq<Op>, dir: string) {
    forall i :: 0 <= i < |ops| && ops[i].Put? ==> ops[i].dir == dir
  }

  lemma PutsIntoAppend(a: seq<Op>, b: seq<Op>, dir: string)
    requires PutsInto(a, dir) && PutsInto(b, dir)
    ensures PutsInto(a + b, dir)
  {
    forall i | 0 <= i < |a + b| && (a + b)[i].Put? ensures (a + b)[i].dir == dir {
      if i < |a| { assert (a + b)[i] == a[i]; } else { assert (a + b)[i] == b[i - |a|]; }
    }
  }

  /** The loop after the one CWD: RETR each file and STOR it into `dir`, stopping at
      the first failure. */
  function StoreAll(files: seq<string>, dir: string, srv: Servers): (u: Upload)
    ensures u.ops <= PlannedStores(files, dir, srv.retr)
    ensures u.completed <==> AllStore(files, dir, srv)
    ensures u.completed ==> u.ops == PlannedStores(files, dir, srv.retr)
    ensures PutsInto(u.ops, dir)
    ensures StopsAtFirstFailure(u, srv)
  {
    if files == [] then Upload([], true)
    else
      var f := files[0];
      var name := Paths.BaseName(f);
      assert AllStore(files, dir, srv) <==> StoreSucceeds(f, dir, srv) && AllStore(files[1..], dir, srv) by {
        assert forall i :: 1 <= i < |files| ==> files[i] == files[1..][i - 1];
      }
      match srv.retr(f)
      case None =>
        Upload([Retr(f)], false)
      case Some(data) =>
        assert StoreTrips(f, dir, srv.retr) == [Retr(f), Put(dir, name, data)];
        if !srv.putOk(dir, name, data) then
          Upload([Retr(f), Put(dir, name, data)], false)
        else
          var rest := StoreAll(files[1..], dir, srv);
          var head := [Retr(f), Put(dir, name, data)];
          assert !Fails(head[0], srv) && !Fails(head[1], srv);
          PrependSucceeding(head, rest, srv);
          PutsIntoAppend(head, rest.ops, dir);
          Upload(head + rest.ops, rest.completed)
  }

  /** What the intended upload issues when every round trip succeeds: nothing for
      an empty selection, otherwise one CWD and then RETR and STOR per file. */
  function PlannedOnce(files: seq<string>, targetPath: string, srv: Servers, dir: string): seq<Op> {
    if files == [] then [] else [Cwd(dir, targetPath)] + PlannedStores(files, Enter(srv, targetPath, dir), srv.retr)
  }

  /** `upload_to_target` as evidently intended, entered with the session in `dir`:
      one CWD to `target_path` before the loop, as the Python program does, then
      each file retrieved and stored in the directory that CWD entered. Every STOR
      lands in the same directory, whether `target_path` is absolute or relative.
      With no file to upload nothing is sent, as with the loop as written. */
  function UploadOnce(files: seq<string>, targetPath: string, srv: Servers, dir: string): (u: Upload)
    ensures files == [] ==> u == Upload([], true)
    ensures files != [] ==> u.ops != [] && u.ops[0] == Cwd(dir, targetPath)
    ensures files != [] && srv.cwd(dir, targetPath).None? ==> u == Upload([Cwd(dir, targetPath)], false)
    ensures u.ops <= PlannedOnce(files, targetPath, srv, dir)
    ensures u.completed <==> files == [] || (srv.cwd(dir, targetPath).Some? && AllStore(files, srv.cwd(dir, targetPath).value, srv))
    ensures u.completed ==> u.ops == PlannedOnce(files, targetPath, srv, dir)
    ensures PutsInto(u.ops, Enter(srv, targetPath, dir))
    ensures StopsAtFirstFailure(u, srv)
  {
    var head := [Cwd(dir, targetPath)];
    if files == [] then Upload([], true)
    else match srv.cwd(dir, targetPath)
    case None =>
      Upload(head, false)
    case Some(target) =>
      var rest := StoreAll(files, target, srv);
      PrependSucceeding(head, rest, srv);
      PutsIntoAppend(head, rest.ops, target);
      Upload(head + rest.ops, rest.completed)
  }

  lemma PlainNames()
    ensures Paths.BaseName("a") == "a" && Paths.BaseName("b") == "b"
  {
    Paths.BaseNameShape("a");
    Paths.BaseNameShape("b");
  }

  /** A pass whose three round trips succeed, followed by the rest of the loop. */
  lemma PassStored(files: seq<string>, targetPath: string, srv: Servers, dir: string, next: string, data: Bytes)
    requires files != [] && srv.retr(files[0]) == Some(data) && srv.cwd(dir, targetPath) == Some(next)
    requires srv.putOk(next, Paths.BaseName(files[0]), data)
    ensures var rest := UploadToTarget(files[1..], targetPath, srv, next);
      UploadToTarget(files, targetPath, srv, dir)
        == Upload([Retr(files[0]), Cwd(dir, targetPath), Put(next, Paths.BaseName(files[0]), data)] + rest.ops, rest.completed)
  {
  }

  /** A pass whose CWD is refused ends the loop. */
  lemma PassCwdRefused(files: seq<string>, targetPath: string, srv: Servers, dir: string)
    requires files != [] && srv.retr(files[0]).Some? && srv.cwd(dir, targetPath).None?
    ensures UploadToTarget(files, targetPath, srv, dir) == Upload([Retr(files[0]), Cwd(dir, targetPath)], false)
  {
  }

  /** A pass of the intended loop whose RETR and STOR succeed. */
  lemma StorePassed(files: seq<string>, dir: string, srv: Servers, data: Bytes)
    requires files != [] && srv.retr(files[0]) == Some(data) && srv.putOk(dir, Paths.BaseName(files[0]), data)
    ensures var rest := StoreAll(files[1..], dir, srv);
      StoreAll(files, dir, srv) == Upload([Retr(files[0]), Put(dir, Paths.BaseName(files[0]), data)] + rest.ops, rest.completed)
  {
  }

  /** The intended upload once its CWD has entered `target`. */
  lemma OnceEntered(files: seq<string>, targetPath: string, srv: Servers, dir: string, target: string)
    requires files != [] && srv.cwd(dir, targetPath) == Some(target)
    ensures var rest := StoreAll(files, target, srv);
      UploadOnce(files, targetPath, srv, dir) == Upload([Cwd(dir, targetPath)] + rest.ops, rest.completed)
  {
  }

  /** A relative `--target-path out`, two files, and a target whose only directory
      below `/home` is `/home/out`. As written the first pass enters `/home/out`
      and stores `a` there, and the second pass asks for `out` from inside
      `/home/out`, which is refused: the process panics and `b` is never stored. */
  lemma RelativeTargetPanics(srv: Servers, c1: Bytes, c2: Bytes)
    requires srv.retr("a") == Some(c1) && srv.retr("b") == Some(c2)
    requires srv.cwd("/home", "out") == Some("/home/out")
    requires srv.cwd("/home/out", "out") == None
    requires srv.putOk("/home/out", "a", c1)
    ensures UploadToTarget(["a", "b"], "out", srv, "/home")
         == Upload([Retr("a"), Cwd("/home", "out"), Put("/home/out", "a", c1), Retr("b"), Cwd("/home/out", "out")], false)
  {
    var files := ["a", "b"];
    PlainNames();
    assert files[0] == "a" && files[1..] == ["b"];
    PassStored(files, "out", srv, "/home", "/home/out", c1);
    PassCwdRefused(["b"], "out", srv, "/home/out");
  }

  /** Two files retrieved and stored in turn by the intended loop. */
  lemma StoreTwo(f1: string, f2: string, dir: string, srv: Servers, d1: Bytes, d2: Bytes)
    requires srv.retr(f1) == Some(d1) && srv.putOk(dir, Paths.BaseName(f1), d1)
    requires srv.retr(f2) == Some(d2) && srv.putOk(dir, Paths.BaseName(f2), d2)
    ensures StoreAll([f1, f2], dir, srv)
         == Upload([Retr(f1), Put(dir, Paths.BaseName(f1), d1), Retr(f2), Put(dir, Paths.BaseName(f2), d2)], true)
  {
    assert [f1, f2][1..] == [f2] && [f2][1..] == [];
    StorePassed([f2], dir, srv, d2);
    StorePassed([f1, f2], dir, srv, d1);
  }

  /** The same servers with the upload as intended: one CWD, and both files stored
      in `/home/out`. */
  lemma RelativeTargetStoresBoth(srv: Servers, c1: Bytes, c2: Bytes)
    requires srv.retr("a") == Some(c1) && srv.retr("b") == Some(c2)
    requires srv.cwd("/home", "out") == Some("/home/out")
    requires srv.putOk("/home/out", "a", c1) && srv.putOk("/home/out", "b", c2)
    ensures UploadOnce(["a", "b"], "out", srv, "/home")
         == Upload([Cwd("/home", "out"), Retr("a"), Put("/home/out", "a", c1), Retr("b"), Put("/home/out", "b", c2)], true)
  {
    PlainNames();
    StoreTwo("a", "b", "/home/out", srv, c1, c2);
    OnceEntered(["a", "b"], "out", srv, "/home", "/home/out");
  }

  /** Whether `targetPath` names the same directory from wherever the session is,
      as an absolute path does. */
  ghost predicate NamesOneDirectory(srv: Servers, targetPath: string, dir: string) {
    forall from :: srv.cwd(from, targetPath) == srv.cwd(dir, targetPath)
  }

  lemma {:induction false} AfterFixed(srv: Servers, targetPath: string, dir: string, target: string, n: nat)
    requires NamesOneDirectory(srv, targetPath, dir) && srv.cwd(dir, targetPath) == Some(target)
    ensures After(srv, targetPath, target, n) == target
  {
    if n > 0 {
      assert srv.cwd(target, targetPath) == Some(target);
      AfterFixed(srv, targetPath, dir, target, n - 1);
    }
  }

  /** For a target path that names one directory from anywhere, every pass after
      the first starts in that directory, and a pass succeeds exactly when its file
      is retrieved and stored there. */
  lemma PassesAgree(files: seq<string>, targetPath: string, srv: Servers, dir: string, target: string, i: nat)
    requires NamesOneDirectory(srv, targetPath, dir) && srv.cwd(dir, targetPath) == Some(target)
    requires i < |files|
    ensures After(srv, targetPath, dir, i) == (if i == 0 then dir else target)
    ensures FileSucceeds(files[i], targetPath, srv, After(srv, targetPath, dir, i)) <==> StoreSucceeds(files[i], target, srv)
  {
    if i > 0 {
      AfterFixed(srv, targetPath, dir, target, i - 1);
    }
    assert srv.cwd(After(srv, targetPath, dir, i), targetPath) == Some(target);
  }

  /** For a target path that names one directory from anywhere, CWD on every pass
      is harmless: the upload as written completes exactly when the intended one
      does, and with no file to upload both send nothing. */
  lemma AbsoluteTargetAgrees(files: seq<string>, targetPath: string, srv: Servers, dir: string)
    requires NamesOneDirectory(srv, targetPath, dir)
    ensures UploadToTarget(files, targetPath, srv, dir).completed <==> UploadOnce(files, targetPath, srv, dir).completed
  {
    if files != [] {
      match srv.cwd(dir, targetPath)
      case None =>
        assert !FileSucceeds(files[0], targetPath, srv, After(srv, targetPath, dir, 0));
      case Some(target) =>
        forall i | 0 <= i < |files|
          ensures FileSucceeds(files[i], targetPath, srv, After(srv, targetPath, dir, i)) <==> StoreSucceeds(files[i], target, srv)
        {
          PassesAgree(files, targetPath, srv, dir, target, i);
        }
    }
  }

  /** For such a target path, a completed upload as written stores every file, under
      its base name and with its own contents, into that one directory. */
  lemma AbsoluteTargetStoresInPlace(files: seq<string>, targetPath: string, srv: Servers, dir: string)
    requires NamesOneDirectory(srv, targetPath, dir)
    ensures var u := UploadToTarget(files, targetPath, srv, dir);
      u.completed ==>
        && |u.ops| == 3 * |files|
        && forall i :: 0 <= i < |files| ==>
             u.ops[3 * i + 2] == Put(srv.cwd(dir, targetPath).value, Paths.BaseName(files[i]), srv.retr(files[i]).value)
  {
    var u := UploadToTarget(files, targetPath, srv, dir);
    PlannedLength(files, targetPath, srv, dir);
    if u.completed && files != [] {
      assert FileSucceeds(files[0], targetPath, srv, After(srv, targetPath, dir, 0));
      var target := srv.cwd(dir, targetPath).value;
      forall i | 0 <= i < |files|
        ensures u.ops[3 * i + 2] == Put(target, Paths.BaseName(files[i]), srv.retr(files[i]).value)
      {
        PassesAgree(files, targetPath, srv, dir, target, i);
        PlannedShape(files, targetPath, srv, dir, i);
        assert u.ops[3 * i + 2] == Planned(files, targetPath, srv, dir)[3 * i .. 3 * i + 3][2];
      }
    }
  }

  // ---------------------------------------------------------------------------
  // The command-line time window

  /** `--start-time` and `--end-time` as given. */
  datatype TimeArgs = TimeArgs(startTime: Option<string>, endTime: Option<string>)

  const DefaultStart := DateTime(2024, 1, 1, 0, 0, 0)
  const DefaultEnd := DateTime(2024, 12, 31, 23, 59, 0)

  /** Lines 127-134 of `main`, as written: both bounds are read from
      `--start-time` with `parse`, chrono's `NaiveDateTime::parse_from_str(v,
      "%Y-%m-%dT%H:%M:%S")`. `None` means an `unwrap` panics. */
  function WindowFromArgs(args: TimeArgs, parse: TimeParser): (w: Option<Window>)
    ensures args.startTime.None? ==> w == Some(Window(DefaultStart, DefaultEnd))
    ensures args.startTime.Some? ==> (w.Some? <==> parse(args.startTime.value).Some?)
    ensures w.Some? && args.startTime.Some? ==> w.value.start == w.value.end == parse(args.startTime.value).value
  {
    var start := match args.startTime case Some(v) => parse(v) case None => Some(DefaultStart);
    var end := match args.startTime case Some(v) => parse(v) case None => Some(DefaultEnd);
    if start.Some? && end.Some? then Some(Window(start.value, end.value)) else None
  }

  /** `--end-time` is never read. */
  lemma EndTimeInert(startTime: Option<string>, end1: Option<string>, end2: Option<string>, parse: TimeParser)
    ensures WindowFromArgs(TimeArgs(startTime, end1), parse) == WindowFromArgs(TimeArgs(startTime, end2), parse)
  {
  }

  /** With `--start-time` given, only files stamped exactly at that instant survive. */
  lemma StartTimeSelectsInstant(args: TimeArgs, parse: TimeParser, listing: seq<string>, pattern: string,
                                matches: Matcher, mdtm: MdtmOracle, f: string)
    requires args.startTime.Some? && parse(args.startTime.value).Some?
    ensures WindowFromArgs(args, parse).Some?
    ensures f in Select(listing, pattern, matches, mdtm, WindowFromArgs(args, parse).value)
        <==> f in listing && matches(pattern, f) && mdtm(f) == parse(args.startTime.value)
  {
    var w := WindowFromArgs(args, parse).value;
    if mdtm(f).Some? {
      WindowShape(w, mdtm(f).value);
    }
  }

  /** Lines 127-134 as evidently intended: the end bound read from `--end-time`. */
  function IntendedWindowFromArgs(args: TimeArgs, parse: TimeParser): (w: Option<Window>)
    ensures w.Some? <==>
      && (args.startTime.None? || parse(args.startTime.value).Some?)
      && (args.endTime.None? || parse(args.endTime.value).Some?)
    ensures w.Some? ==> w.value.start == (if args.startTime.None? then DefaultStart else parse(args.startTime.value).value)
    ensures w.Some? ==> w.value.end == (if args.endTime.None? then DefaultEnd else parse(args.endTime.value).value)
  {
    var start := match args.startTime case Some(v) => parse(v) case None => Some(DefaultStart);
    var end := match args.endTime case Some(v) => parse(v) case None => Some(DefaultEnd);
    if start.Some? && end.Some? then Some(Window(start.value, end.value)) else None
  }

  /** The code as written is the intended reading given `--start-time` twice: the
      as-written run is `Run` with the end option replaced by the start option. */
  lemma WindowFromArgsReadsStartTwice(args: TimeArgs, parse: TimeParser)
    ensures WindowFromArgs(args, parse) == IntendedWindowFromArgs(TimeArgs(args.startTime, args.startTime), parse)
  {
  }

  /** The two readings differ: `--start-time 2024-03-01T00:00:00 --end-time
      2024-06-01T00:00:00` and a file stamped 2024-04-01T00:00:00. As written the
      window is the single instant 2024-03-01T00:00:00 and the file is dropped; as
      intended it is kept. */
  lemma EndTimeIgnoredExample(parse: TimeParser, matches: Matcher, pattern: string, mdtm: MdtmOracle)
    requires parse("2024-03-01T00:00:00") == Some(DateTime(2024, 3, 1, 0, 0, 0))
    requires parse("2024-06-01T00:00:00") == Some(DateTime(2024, 6, 1, 0, 0, 0))
    requires matches(pattern, "/src/a.csv")
    requires mdtm("/src/a.csv") == Some(DateTime(2024, 4, 1, 0, 0, 0))
    ensures var args := TimeArgs(Some("2024-03-01T00:00:00"), Some("2024-06-01T00:00:00"));
      && WindowFromArgs(args, parse) == Some(Window(DateTime(2024, 3, 1, 0, 0, 0), DateTime(2024, 3, 1, 0, 0, 0)))
      && Select(["/src/a.csv"], pattern, matches, mdtm, WindowFromArgs(args, parse).value) == []
      && IntendedWindowFromArgs(args, parse) == Some(Window(DateTime(2024, 3, 1, 0, 0, 0), DateTime(2024, 6, 1, 0, 0, 0)))
      && Select(["/src/a.csv"], pattern, matches, mdtm, IntendedWindowFromArgs(args, parse).value) == ["/src/a.csv"]
  {
    var args := TimeArgs(Some("2024-03-01T00:00:00"), Some("2024-06-01T00:00:00"));
    var asWritten := Select(["/src/a.csv"], pattern, matches, mdtm, WindowFromArgs(args, parse).value);
    var intended := Select(["/src/a.csv"], pattern, matches, mdtm, IntendedWindowFromArgs(args, parse).value);
    assert "/src/a.csv" !in asWritten;
    assert "/src/a.csv" in intended;
    assert |intended| <= 1 by {
      assert intended == Filter(Selected(pattern, matches, mdtm, IntendedWindowFromArgs(args, parse).value), ["/src/a.csv"]);
    }
  }

  // ---------------------------------------------------------------------------
  // The whole run

  datatype Outcome =
    | TimeArgRejected                             // a time `unwrap` panicked before connecting
    | Ran(selected: seq<string>, upload: Upload)  // the candidates and the upload log

  /** `main` after connecting, as evidently intended: the window with the end bound
      read from `--end-time`, the listing filter, the time filter, and the upload
      with its one CWD before the loop, from the directory the session logged in to. */
  function Run(args: TimeArgs, parse: TimeParser, listing: seq<string>, pattern: string, matches: Matcher,
               mdtm: MdtmOracle, targetPath: string, srv: Servers): (o: Outcome)
    ensures o.TimeArgRejected? <==>
      || (args.startTime.Some? && parse(args.startTime.value).None?)
      || (args.endTime.Some? && parse(args.endTime.value).None?)
    ensures o.Ran? ==> IsSubseq(o.selected, listing)
    ensures o.Ran? ==> forall f :: f in o.selected <==>
      && f in listing
      && matches(pattern, f)
      && mdtm(f).Some?
      && Contains(IntendedWindowFromArgs(args, parse).value, mdtm(f).value)
    ensures o.Ran? ==> forall f ::
      multiset(o.selected)[f] == (if Selected(pattern, matches, mdtm, IntendedWindowFromArgs(args, parse).value)(f) then multiset(listing)[f] else 0)
    ensures o.Ran? && args == TimeArgs(None, None) ==>
      forall f :: f in o.selected ==> Le(DefaultStart, mdtm(f).value) && Le(mdtm(f).value, DefaultEnd)
    ensures o.Ran? && o.selected == [] ==> o.upload == Upload([], true)
    ensures o.Ran? && o.selected != [] ==> o.upload.ops != [] && o.upload.ops[0] == Cwd(srv.home, targetPath)
    ensures o.Ran? ==> o.upload.ops <= PlannedOnce(o.selected, targetPath, srv, srv.home)
    ensures o.Ran? ==>
      (o.upload.completed <==>
        o.selected == [] || (srv.cwd(srv.home, targetPath).Some? && AllStore(o.selected, srv.cwd(srv.home, targetPath).value, srv)))
    ensures o.Ran? && o.upload.completed ==> o.upload.ops == PlannedOnce(o.selected, targetPath, srv, srv.home)
    ensures o.Ran? ==> PutsInto(o.upload.ops, Enter(srv, targetPath, srv.home))
    ensures o.Ran? ==> StopsAtFirstFailure(o.upload, srv)
  {
    match IntendedWindowFromArgs(args, parse)
    case None => TimeArgRejected
    case Some(w) =>
      var selected := Select(listing, pattern, matches, mdtm, w);
      Ran(selected, UploadOnce(selected, targetPath, srv, srv.home))
  }
}

=== FILE: seqs.dfy ===
/** Order-preserving filtering, subsequences and concatenation of sequences. */
module Seqs {

  /** `a` can be obtained from `b` by deleting elements, without reordering.
      Matching `a[0]` against the first equal element of `b` is complete for this. */
  predicate IsSubseq<T(==)>(a: seq<T>, b: seq<T>)
    decreases |b|
  {
    if a == [] then true
    else if b == [] then false
    else if a[0] == b[0] then IsSubseq(a[1..], b[1..])
    else IsSubseq(a, b[1..])
  }

  /** The elements of `s` that satisfy `p`, in their original order. */
  function Filter<T(==,!new)>(p: T -> bool, s: seq<T>): (r: seq<T>)
    ensures |r| <= |s|
    ensures forall i :: 0 <= i < |r| ==> p(r[i])
    ensures forall x :: x in r <==> x in s && p(x)
    ensures forall x :: multiset(r)[x] == if p(x) then multiset(s)[x] else 0
  {
    if s == [] then []
    else
      assert s == [s[0]] + s[1..];
      if p(s[0]) then [s[0]] + Filter(p, s[1..]) else Filter(p, s[1..])
  }

  lemma {:induction false} FilterIsSubseq<T(!new)>(p: T -> bool, s: seq<T>)
    ensures IsSubseq(Filter(p, s), s)
  {
    if s != [] {
      var r := Filter(p, s);
      FilterIsSubseq(p, s[1..]);
      if p(s[0]) {
        assert r[0] == s[0] && r[1..] == Filter(p, s[1..]);
      } else if r != [] {
        assert p(r[0]);
        assert r[0] != s[0];
      }
    }
  }

  /** Filtering twice with the same predicate removes nothing more. */
  lemma {:induction false} FilterIdempotent<T(!new)>(p: T -> bool, s: seq<T>)
    ensures Filter(p, Filter(p, s)) == Filter(p, s)
  {
    if s != [] {
      FilterIdempotent(p, s[1..]);
      if p(s[0]) {
        var r := Filter(p, s);
        assert r[0] == s[0] && r[1..] == Filter(p, s[1..]);
      }
    }
  }

  /** An order-preserving subsequence of `s` made of elements satisfying `p`
      that is as long as `Filter(p, s)` is `Filter(p, s)`. */
  lemma {:induction false} FilterUnique<T(!new)>(p: T -> bool, s: seq<T>, r: seq<T>)
    requires IsSubseq(r, s)
    requires forall i :: 0 <= i < |r| ==> p(r[i])
    requires |r| >= |Filter(p, s)|
    ensures r == Filter(p, s)
  {
    if s == [] {
    } else if r == [] {
    } else if r[0] == s[0] {
      assert p(r[0]);
      assert forall i :: 0 <= i < |r[1..]| ==> p(r[1..][i]) by {
        forall i | 0 <= i < |r[1..]| ensures p(r[1..][i]) { assert r[1..][i] == r[i + 1]; }
      }
      FilterUnique(p, s[1..], r[1..]);
    } else {
      if p(s[0]) {
        assert |Filter(p, s)| == 1 + |Filter(p, s[1..])|;
        FilterUnique(p, s[1..], r);
        assert false;
      }
      FilterUnique(p, s[1..], r);
    }
  }

  /** The filter is exactly characterised: the only order-preserving subsequence of
      `s` holding each element satisfying `p` as often as `s` does, and no other
      element, is `Filter(p, s)`. */
  lemma FilterCharacterized<T(!new)>(p: T -> bool, s: seq<T>, r: seq<T>)
    requires IsSubseq(r, s)
    requires forall x :: multiset(r)[x] == if p(x) then multiset(s)[x] else 0
    ensures r == Filter(p, s)
  {
    var f := Filter(p, s);
    forall i | 0 <= i < |r| ensures p(r[i]) {
      assert multiset(r)[r[i]] > 0;
    }
    assert multiset(r) == multiset(f);
    assert |r| == |multiset(r)| == |multiset(f)| == |f|;
    FilterUnique(p, s, r);
  }

  /** Keeping what satisfies `p` and then what satisfies `q` keeps what satisfies both. */
  lemma {:induction false} FilterFuse<T(!new)>(p: T -> bool, q: T -> bool, pq: T -> bool, s: seq<T>)
    requires forall x :: x in s ==> (pq(x) <==> p(x) && q(x))
    ensures Filter(q, Filter(p, s)) == Filter(pq, s)
  {
    if s != [] {
      FilterFuse(p, q, pq, s[1..]);
      if p(s[0]) {
        var r := Filter(p, s);
        assert r[0] == s[0] && r[1..] == Filter(p, s[1..]);
      }
    }
  }

  /** Predicates that agree on the elements of `s` keep the same elements. */
  lemma {:induction false} FilterExt<T(!new)>(p: T -> bool, q: T -> bool, s: seq<T>)
    requires forall x :: x in s ==> (p(x) <==> q(x))
    ensures Filter(p, s) == Filter(q, s)
  {
    if s != [] {
      FilterExt(p, q, s[1..]);
    }
  }

  /** The concatenation of a sequence of sequences. */
  function Flatten<T>(ss: seq<seq<T>>): (r: seq<T>)
  {
    if ss == [] then [] else ss[0] + Flatten(ss[1..])
  }
}

=== FILE: text.dfy ===
/** Splitting a string on a separator character, as Rust's `str::split(char)` and
    Python's `str.split(sep)` do: every occurrence of the separator cuts, so empty
    pieces are kept and there is always at least one piece. */
module Text {

  /** The number of occurrences of `c` in `s`. */
  function Count(s: string, c: char): nat
  {
    if s == [] then 0 else (if s[0] == c then 1 else 0) + Count(s[1..], c)
  }

  /** The pieces joined back together with the separator between them. */
  function Join(parts: seq<string>, sep: char): string
    requires |parts| >= 1
  {
    if |parts| == 1 then parts[0] else parts[0] + [sep] + Join(parts[1..], sep)
  }

  function Split(s: string, sep: char): (parts: seq<string>)
    ensures |parts| == Count(s, sep) + 1
    ensures forall i :: 0 <= i < |parts| ==> sep !in parts[i]
    ensures Join(parts, sep) == s
  {
    if s == [] then [[]]
    else
      var rest := Split(s[1..], sep);
      assert s == [s[0]] + s[1..];
      if s[0] == sep then [[]] + rest
      else
        var parts := [[s[0]] + rest[0]] + rest[1..];
        assert parts[1..] == rest[1..];
        parts
  }

  /** A string without the separator, followed by the separator, splits into that
      string and the pieces of the rest. */
  lemma {:induction false} SplitAfterPiece(w: string, sep: char, t: string)
    requires sep !in w
    ensures Split(w + [sep] + t, sep) == [w] + Split(t, sep)
  {
    if w != [] {
      var s := w + [sep] + t;
      assert s[0] == w[0] != sep;
      assert s[1..] == w[1..] + [sep] + t;
      SplitAfterPiece(w[1..], sep, t);
      var rest := Split(s[1..], sep);
      assert rest[0] == w[1..] && rest[1..] == Split(t, sep);
      assert [w[0]] + w[1..] == w;
    } else {
      assert (w + [sep] + t)[1..] == t;
    }
  }

  lemma {:induction false} SplitPiece(w: string, sep: char)
    requires sep !in w
    ensures Split(w, sep) == [w]
  {
    if w != [] {
      SplitPiece(w[1..], sep);
      assert w == [w[0]] + w[1..];
    }
  }

  /** Splitting undoes joining pieces that do not contain the separator. */
  lemma {:induction false} SplitJoin(parts: seq<string>, sep: char)
    requires |parts| >= 1
    requires forall i :: 0 <= i < |parts| ==> sep !in parts[i]
    ensures Split(Join(parts, sep), sep) == parts
  {
    if |parts| == 1 {
      SplitPiece(parts[0], sep);
    } else {
      SplitJoin(parts[1..], sep);
      SplitAfterPiece(parts[0], sep, Join(parts[1..], sep));
      assert parts == [parts[0]] + parts[1..];
    }
  }

  /** The last piece is what follows the final separator. */
  lemma {:induction false} JoinLast(parts: seq<string>, sep: char)
    requires |parts| >= 2
    ensures Join(parts, sep) == Join(parts[..|parts| - 1], sep) + [sep] + parts[|parts| - 1]
  {
    if |parts| > 2 {
      JoinLast(parts[1..], sep);
      assert parts[1..][..|parts| - 2] == parts[..|parts| - 1][1..];
    }
  }
}

=== FILE: variants.dfy ===
/** How the two programs of the repository compare on the same listing and servers. */
module Variants {
  import opened Wrappers
  import opened Seqs
  import opened DateTimes
  import opened Ftp
  import RustMain
  import PyMain

  /** Rust's `Regex::is_match` and Python's `re.search` give the same answer for the
      pattern on every listed entry. The two engines can differ (Python's `$` also
      matches before a final newline; look-arounds compile only in Python). */
  predicate MatchersAgree(listing: seq<string>, pattern: string, rustMatches: Matcher, pyMatches: Matcher)
  {
    forall f :: f in listing ==> (rustMatches(pattern, f) <==> pyMatches(pattern, f))
  }

  /** The Rust MDTM reading (suppaftp and chrono) gives, for the entry, the time the
      Python code reads with `strptime`, and nothing where the Python code raises.
      The readings can differ: `strptime` also accepts shorter stamps. */
  predicate ReadsAgreeOn(mdtm: RustMain.MdtmOracle, replies: PyMain.MdtmReplies, f: string)
  {
    mdtm(f) == (var t := PyMain.GetModifiedTime(replies, f); if t.Ok? then Some(t.value) else None)
  }

  /** With the engines and the time readings agreeing on the listing, and every
      matching entry's time readable, `list_files` with both bounds and the Rust
      regex-then-time filters select the same entries in the same order. */
  lemma SelectionsAgree(listing: seq<string>, pattern: string, rustMatches: Matcher, pyMatches: Matcher,
                        mdtm: RustMain.MdtmOracle, replies: PyMain.MdtmReplies, w: Window)
    requires MatchersAgree(listing, pattern, rustMatches, pyMatches)
    requires forall f :: f in listing ==> ReadsAgreeOn(mdtm, replies, f)
    requires forall f :: f in listing && pyMatches(pattern, f) ==> PyMain.GetModifiedTime(replies, f).Ok?
    ensures PyMain.ListFiles(listing, PyMain.Query(pattern, pyMatches, replies, Some(w.start), Some(w.end)))
         == Ok(RustMain.Select(listing, pattern, rustMatches, mdtm, w))
  {
    var q := PyMain.Query(pattern, pyMatches, replies, Some(w.start), Some(w.end));
    assert PyMain.NoneRaise(q, listing);
    FilterExt(PyMain.KeptBy(q), RustMain.Selected(pattern, rustMatches, mdtm, w), listing);
  }

  /** A matching entry whose time neither program can read ends the Python run with
      an exception, while the Rust program drops that entry and goes on. */
  lemma UnreadableEntryDiverges(listing: seq<string>, pattern: string, rustMatches: Matcher, pyMatches: Matcher,
                                mdtm: RustMain.MdtmOracle, replies: PyMain.MdtmReplies, w: Window, f: string)
    requires f in listing && pyMatches(pattern, f)
    requires PyMain.GetModifiedTime(replies, f).Err?
    requires mdtm(f).None?
    ensures PyMain.ListFiles(listing, PyMain.Query(pattern, pyMatches, replies, Some(w.start), Some(w.end))).Err?
    ensures f !in RustMain.Select(listing, pattern, rustMatches, mdtm, w)
  {
    var q := PyMain.Query(pattern, pyMatches, replies, Some(w.start), Some(w.end));
    assert PyMain.Raises(q, f);
  }

  /** The default windows differ: the Rust one ends at 2024-12-31 23:59:00, the Python
      one at 2025-01-01 00:00:00, so a file stamped in the last minute of 2024 is
      selected only by the Python program. */
  lemma DefaultWindowsDiffer()
    ensures var t := DateTime(2024, 12, 31, 23, 59, 30);
      && Valid(t)
      && Contains(Window(PyMain.DefaultStart, PyMain.DefaultEnd), t)
      && !Contains(Window(RustMain.DefaultStart, RustMain.DefaultEnd), t)
    ensures PyMain.DefaultStart == RustMain.DefaultStart
  {
  }
}

=== FILE: wrappers.dfy ===
/** Failure-carrying values shared by every module of the model. */
module Wrappers {

  /** A value that may be missing: a failed server query, a parse that did not succeed. */
  datatype Option<+T> = None | Some(value: T) {
    function GetOr(default: T): T {
      match this
      case Some(v) => v
      case None => default
    }
  }

  /** The value of a computation, or the error that ended it (a Python exception). */
  datatype Result<+T, +E> = Ok(value: T) | Err(error: E)
}
